=== FILE: README.md ===
# klaud-api gateway core, modelled in Dafny

This project models the decision logic of the klaud-api Cloudflare worker (`src/index.js`). The worker is a read-only gateway that fronts Hacker News, PubMed, arXiv, CoinGecko/CoinCap, GitHub, arbitrary web pages and ChEMBL. In front of every endpoint it enforces a daily quota per caller. The model covers:

- **The quota gate** (`quota.dfy`). One request is a pure transition `(store, request, today) -> (store', outcome)`. The key/value store is an `Option<map<string, int>>`, where `None` means no store is bound. Pro status comes from a `pro:<key>` entry. The rate identity is `key:<apiKey>` for pro callers and the client IP (or `unknown`) for everyone else. The counter lives under `usage:<id>:<YYYY-MM-DD>`. The limit is 20 requests a day on the free plan and 1000 on pro. The status call is never metered. A request over the limit is denied without a write. An admitted request writes `usage + 1` before it is dispatched, and that includes unknown `/api/*` paths, which are counted and then answered with 404.
- **Target mode of `/api/drugs`** (`targets.dfy`, `dedup.dfy`, `drugs.dfy`). This is a resolve-then-aggregate pipeline:
  - a four-tier first-match selection of one ChEMBL target;
  - first-occurrence deduplication of its mechanisms by molecule id, which stops at the limit;
  - a best-effort batch lookup that fills in missing molecule names.

  The deduplication loop is a method, and it is proved equal to an independent reference definition (`FirstOccurrences`).
- **The top-coins fallback chain of `/api/crypto`** (`crypto.dfy`). CoinGecko is tried first, then CoinCap, and 502 is returned only when both fail. The single-coin lookup is modelled too.
- **Text truncation** (`truncation.dfy`, `papers.dfy`, `extract.dfy`). Abstracts are cut to 500 characters and get `...` appended when longer. Extracted page content is cut at `?max=` characters, capped at 10000, and carries a `truncated` flag.
- **The Hacker News feed** (`hackernews.dfy`). Stories are filtered by topic, stably sorted by descending score (a missing score counts as 0), and sliced to the clamped limit.

Upstream services are inputs to the model. Each one is either a reply value or a function from the request parameters the handler sends to a `Fetched<T>`, which is `Threw | Got(body)`. The regex helpers (XML field extraction, HTML stripping, topic keyword tests, URL validation) are uninterpreted function parameters. The current date is a string input.

`chain.dfy` holds the ordered early-exit routine (`FindFirst`, `FirstSome`). Target resolution and the crypto fallback chain both use it. `jstext.dfy` writes out the JavaScript primitives with their edge cases:
- falsy `""`;
- `substring` clamping;
- `slice(0, n)` with a negative `n` counting from the end;
- `replace` of the first occurrence only;
- ASCII `toUpperCase`.

### Behaviour of the code that the model keeps

- **Exceptions escape the catch.** Every handler is invoked as `return handleX(url)` inside `try`, without `await` (`src/index.js:89-95`). An exception thrown asynchronously inside a handler therefore escapes the `catch` at `src/index.js:104-106`. Such exceptions include a failed upstream fetch and an unparseable body. The handler's promise rejects and the worker runtime produces the error response; the model reports these cases as `Envelope.Rejected`.
- **Store faults.** The two store reads (`src/index.js:40, 53`) happen before the `try`, so a failed read also rejects the request (`Quota.StoreRejected`). The counter write (`src/index.js:86`) is awaited inside the `try`, so a failed write is caught and answered with the JSON `Internal error` 500, and the request is not dispatched (`Quota.InternalError`). This failed write is the only way the model reaches that 500.
- **Tier (a) requires a single protein.** The first tier of target resolution requires the organism `Homo sapiens`, the target type `SINGLE PROTEIN` and an exact synonym match, as the comment at `src/index.js:484` says.
- **The deduplication loop keeps at least one molecule.** The loop pushes a mechanism before it tests `rawDrugs.length >= limit` (`src/index.js:506-507`), so `?limit=0` or a negative limit still returns at most one drug, and exactly one when the target has any mechanism. The model's bound is `max(limit, 1)` (`Dedup.Bound`).
- **A negative HN limit trims from the end.** `Math.min(parseInt(limit), 30)` can be negative, and `slice(0, -k)` then drops the last `k` stories instead of returning none (`src/index.js:113, 142`). A negative `?max=` on `/api/extract` yields empty content flagged as truncated.
- **An empty CoinCap list counts as an answer.** `data?.data` is truthy for an empty array, so an empty CoinCap list is a successful answer with `source: 'coincap'` and no coins (`src/index.js:324`).
- **A cut abstract can match its input.** An abstract of exactly 503 characters that ends in `...` comes back unchanged even though it was cut (see `Truncation.AbstractIsPrefix`).

## Model

| member | source | states |
|---|---|---|
| `Quota.Identify` | src/index.js:37-55 | Pro holds iff a non-empty key is present, a store is bound and `pro:<key>` is in it. Pro callers get limit 1000 and identity `key:<apiKey>`; everyone else gets limit 20 and the client IP, or `unknown`. Usage is read from `usage:<id>:<today>` and is 0 when that key or the store is missing. |
| `Quota.Remaining` | src/index.js:69 | `max(0, limit - usage)` is never negative. It is 0 exactly when usage has reached the limit, and otherwise usage plus remaining equals the limit. |
| `Quota.Route` | src/index.js:89-100 | A path is dispatched exactly when it is one of the seven endpoint paths, and then to that endpoint. Every other path is unknown. |
| `Quota.Gate` | src/index.js:28-107 | A preflight touches nothing. `/` and the empty path get the landing page with the caller's usage, limit and plan, and any other path outside `/api/` gets 404; neither writes. A metered request (not OPTIONS, under `/api/`, not `/api/status`) is denied iff usage >= limit. A denial reports usage, limit and plan and leaves the store unchanged. A request is admitted iff it is metered and under the limit. An admitted request, unknown endpoints included, writes exactly `usage + 1` under its key. Nothing else writes. Status reports plan, usage, limit and remaining. With no store bound, the gate never denies and never writes. |
| `Quota.Serve` | src/index.js:37-106 | With a store that may fail: a failed read (the `pro:` read when a key is given, or the counter read) rejects the request. With the reads intact, a failed counter write on an admitted request yields the JSON 500 and no dispatch. Neither failure changes the store. Without faults, or without a store, it is exactly `Gate`. |
| `Quota.ApiKey` | src/index.js:37 | A non-empty `?key=` wins. Otherwise the key is the `Authorization` header with its first `Bearer ` removed, wherever it stands (`Token Bearer x` gives `Token x`). A leading `Bearer ` leaves the rest, and a header without one is unchanged. There is no key exactly when neither is present. |
| `Quota.UsageKeyIsNotProKey` | src/index.js:40-48 | A usage counter key can never coincide with a `pro:` marker key. |
| `Quota.UsageKeyInjective` | src/index.js:47-48 | For fixed-width dates, a usage key determines both the identity and the day. |
| `Quota.IdentifyAfterWrite` | src/index.js:39-55 | Writing a usage counter changes nobody's plan, identity, limit or key. It changes a caller's usage only when it wrote that caller's own counter. |
| `Quota.RepeatCounts` | src/index.js:51-87 | From a fresh day, after n <= limit metered requests the store holds exactly n under the caller's key and is otherwise unchanged. |
| `Quota.AdmittedBeforeLimit` | src/index.js:75-87 | Each of the first `limit` metered requests of a day is admitted. |
| `Quota.ExhaustThenDeny` | src/index.js:75-82 | The request after `limit` admitted ones on the same day is denied and reports `usage == limit`. |
| `Quota.StatusIsFree` | src/index.js:63-73 | Any number of status calls leaves the store as it was and is never denied. |
| `Quota.DayIsolation` | src/index.js:47-55 | A request on one day changes nothing that any caller reads on another day, so counters reset at the day boundary. |
| `JsText.ReplaceFirstCases` | src/index.js:37 | `replace('Bearer ', '')` strips the prefix of a `Bearer` header and leaves a header without it unchanged. |
| `JsText.IntParam` | src/index.js:113 | A clamped numeric parameter never exceeds its cap. It takes the default (clamped) when absent, is the given value when that is within the cap, and is the cap when the value is above it. |
| `JsText.Prefix` | src/index.js:187 | `substring(0, n)` is a prefix of the text whose length is `n` clamped into `[0, length]`. |
| `JsText.SliceEnd` | src/index.js:142 | `slice(0, n)` keeps `min(n, length)` items for a non-negative `n`, and otherwise drops `min(-n, length)` items from the end. |
| `JsText.Upper` | src/index.js:487 | Upper-casing preserves length and maps every character through ASCII `toUpperCase`. |
| `Chain.FindFirst` | src/index.js:485-490 | `Array.find`: the index of the first element satisfying the predicate, or none exactly when no element does. |
| `Chain.FirstSome` | src/index.js:297-339 | Ordered early exit: the first attempt that produced a value, with every earlier attempt failed. None exactly when all attempts failed. |
| `Targets.Resolve` | src/index.js:480-491 | Only an empty candidate list yields nothing, and a choice is always in the list. If any candidate is a human single protein with a case-insensitive exact synonym match, the first such candidate is chosen. Otherwise the first human single protein is chosen, then the first human target, and otherwise `targets[0]`. |
| `Targets.ExactMatchIsOrderIndependent` | src/index.js:485-487 | When exactly one candidate meets tier (a), it is chosen however the upstream ordered the list. |
| `Dedup.FirstOccurrencesSpec` | src/index.js:501-508 | The reference walk keeps one mechanism per molecule. Its ids are pairwise distinct, it is a subsequence of the input, every molecule of the input is kept, and each kept mechanism is its molecule's first. The molecules come in the order of their first records (`FirstIndex`), so `[m1, m2, m1]` gives `[m1, m2]`. |
| `Dedup.KeepFirstSpec` | src/index.js:501-508 | The kept list has distinct ids, keeps first occurrences, and is ordered by the molecules' first records. Its length is `min(max(limit, 1), #distinct ids)`. It is closed towards the front: every mechanism before the first record of a kept molecule belongs to a kept molecule, so `[a, b, c]` with limit 2 keeps `a` and `b`. It holds every molecule when they all fit. |
| `Dedup.DedupMechanisms` | src/index.js:501-508 | The `seen`-set loop with its early break computes exactly the reference result `KeepFirst`, so every property of `KeepFirstSpec` holds of it: first records in first-seen order, and no molecule skipped in favour of a later one. |
| `Drugs.UntilNull` | src/index.js:520-522 | The batch loop records the molecules before the first `null` record and stops there. |
| `Drugs.NameMapKeys` | src/index.js:520-522 | The name map has an entry for exactly the molecule ids of the batch. |
| `Drugs.NameMapLastWins` | src/index.js:520-522 | For a molecule listed more than once, the name recorded is that of its last record. |
| `Drugs.DrugName` | src/index.js:527 | The name is `molecule_name` if truthy, else the batch map's entry if truthy, else null. It is never the empty string. |
| `Drugs.Aggregate` | src/index.js:500-533 | The reported drugs are the deduplicated mechanisms in order, `min(max(limit,1), #molecules)` of them, with distinct ids. There are none exactly when there are no mechanisms. Each carries its mechanism's fields and its report-card URL. The one batch lookup is asked for exactly the reported ids, in order, and each name is merged from the mechanism and that lookup's answer. |
| `Drugs.Best` | src/index.js:485-491 | The chosen target is one of the candidates. |
| `Drugs.TargetMode` | src/index.js:472-544 | 404 iff the target search has no `targets` or an empty list. A thrown search or mechanisms call rejects, and among well-typed replies nothing else fails. Success holds exactly when the search found targets and the mechanisms call for the resolved one (asking for `limit*3`) answered. The reply then describes that target and aggregates its mechanisms, and it lists no drugs exactly when there were no mechanisms. |
| `Drugs.NameMode` | src/index.js:546-582 | Success holds iff the name search answers, and a thrown search rejects. The hits are reported one-to-one with id, name, type and report-card URL. A missing or empty list is an empty success, not an error. |
| `Drugs.HandleDrugs` | src/index.js:452-467 | 400 iff neither `?q=` nor `?target=` is given. `?target=` takes precedence, and the limit is clamped to 10 with default 5. |
| `Drugs.BatchFailureIsSwallowed` | src/index.js:510-533 | Whatever the batch lookup returns, the same drugs are reported in the same order. When it fails, each name is the mechanism's own `molecule_name` or null. |
| `Crypto.TopCoins` | src/index.js:297-339 | The list comes from CoinGecko iff it returned a non-empty array. Otherwise it comes from CoinCap iff CoinCap returned `data`. Otherwise the answer is 502. Either way the coins correspond one-to-one to the winning upstream's list, with the same ids, names and figures, each converted by that source's rule. |
| `Crypto.FromGecko` | src/index.js:305-314 | A CoinGecko entry keeps id, name and figures, and its symbol is upper-cased character by character. |
| `Crypto.FromCap` | src/index.js:325-334 | A CoinCap entry keeps id, name, figures and symbol as sent. |
| `Crypto.SourcesDifferOnlyInCase` | src/index.js:305-334 | The two sources report an entry alike except for the symbol's case, so an upper-case or missing symbol comes out the same from both. |
| `Crypto.GeckoFirst` | src/index.js:297-317 | When CoinGecko answers, CoinCap's reply cannot affect the result. |
| `Crypto.CoinLookup` | src/index.js:257-292 | A coin present in CoinGecko's price map is answered from CoinGecko's figures, and only then. Otherwise a CoinCap asset answers with exactly that asset's figures and source `coincap`, and a missing asset is 404. A thrown price call, or a thrown asset call after a miss, rejects. |
| `Crypto.HandleCrypto` | src/index.js:250-295 | `?coin=` selects the single lookup and carries its result or failure status through. Otherwise the list limit is clamped to 25 and the chain runs, and its only failure is 502. |
| `HackerNews.Filter` | src/index.js:139-140 | Only stories that exist, have a title and pass the topic test (or any story when the topic is `all`) are kept, and every such story is kept. |
| `HackerNews.FilterSingle` | src/index.js:139-140 | One story is kept as itself or dropped. |
| `HackerNews.FilterAppend` | src/index.js:139-140 | Filtering distributes over concatenation, so it keeps upstream order and multiplicity. |
| `HackerNews.InsertSpec` | src/index.js:141 | Inserting into a score-sorted list keeps it sorted and adds exactly that story. |
| `HackerNews.SortSpec` | src/index.js:141 | The score comparator sort yields non-increasing scores (missing score = 0) and is a permutation of its input. |
| `HackerNews.InsertWithScore` | src/index.js:141 | An inserted story goes ahead of every story already there with the same score. |
| `HackerNews.SortIsStable` | src/index.js:141 | The sort is stable: for every score, the stories with that score keep their upstream order. |
| `HackerNews.TopOfSorted` | src/index.js:141-142 | Cutting a score-sorted list leaves nothing behind that outscores what was taken. |
| `HackerNews.SelectSpec` | src/index.js:139-142 | The feed holds only matching stories, by non-increasing score. It has `min(limit, #matching)` of them for a non-negative limit, and `slice`'s length otherwise. No matching story left out scores higher than one taken. |
| `HackerNews.Select` | src/index.js:139-142 | The selection is never longer than the batch it came from. |
| `HackerNews.SelectTitled` | src/index.js:139-142 | Every selected story has a non-empty title. |
| `HackerNews.Present` | src/index.js:143-150 | A story is reported with its own URL when it has one, and otherwise its discussion page, which is always `hn_url`. Its title, score and time are carried over, and comments default to 0. |
| `HackerNews.FetchStories` | src/index.js:118-126 | Only the first 40 ids are fetched. A failed fetch yields `null`, and an unreadable body rejects the whole batch. |
| `HackerNews.HandleHN` | src/index.js:111-153 | The feed reports the default topic `ai` when none is given, and the selection in order, each story with a non-empty title. It holds at most 40 stories. It fails, by rejecting, exactly when the top-stories call throws or an item body is unreadable. |
| `Truncation.Abstract` | src/index.js:187 | Null for a missing or empty text. A text of at most 500 characters is unchanged, and a longer one becomes its first 500 characters plus `...`. The result is never longer than 503. |
| `Truncation.AbstractIsPrefix` | src/index.js:237 | Without its ellipsis the abstract is a prefix of the original. It equals the original when nothing was cut, and otherwise is exactly 503 characters ending in `...`. |
| `Truncation.Cut` | src/index.js:445-447 | The content is the prefix of length `min(len, max(0, maxChars))`, and `length` is the full length. `truncated` holds iff `len > maxChars`, and for a non-negative cap that is exactly when the content is not the whole text. |
| `PageExtract.HandleExtract` | src/index.js:387-449 | 400 iff `?url=` is missing or not a URL, rejection iff the page fetch throws, and success otherwise. The content never exceeds 10000 characters. A JSON content type reports the raw body cut to the cap, and anything else reports the parsed title, description and text cut to the cap. |
| `Papers.HandlePubMed` | src/index.js:156-195 | 400 iff `?q=` is missing. Success holds exactly when the search answers and, for a non-empty id list, the fetch answers; otherwise the request rejects. An empty id list is an empty success without `total_found`. Otherwise each fetched block becomes one article, in order, with an abstract of at most 503 characters and a URL built from its PMID. |
| `Papers.HandleArxiv` | src/index.js:198-247 | 400 iff `?q=` is missing. Otherwise success holds exactly when the feed call answers, and a thrown call rejects. The reply echoes the query, and the category is `all` unless given. Each entry becomes one paper, in order, with at most 5 authors, which are the entry's first ones. |
| `Papers.CanonicalIdAndPdf` | src/index.js:229-234 | For an abstract URL `http://arxiv.org/abs/<x>` without its own PDF link, the id is `<x>` and the PDF link is `http://arxiv.org/pdf/<x>`. |

## Left out

- Network transport: `fetch`, `Response`, `JSON.stringify` and the CORS headers. Upstream replies are inputs.
- The landing page HTML (`src/index.js:599-773`). It is static rendering, and the model keeps only the usage, limit and plan it is given.
- The GitHub trending handler (`src/index.js:343-384`). It is a plain single-source pipeline built on `Date` arithmetic.
- Regular expressions are uninterpreted function parameters. This covers the `extract` helper, HTML stripping and entity decoding, the arXiv author, category and PDF-link matches, whitespace collapsing, and the HN topic keyword patterns.
- `parseFloat`/`parseInt` on prices, counts and molecule properties, `phase_label` rounding, and the numeric fields of name-mode molecules. These are floating-point concerns. A numeric query parameter arrives as an already-parsed integer, and a non-numeric one (`NaN`) is not modelled.
- `Date`/ISO-time formatting. Today's date is a string input, and HN story times stay integers.
- Concurrency and expiry of the store. The read-then-write race that lets concurrent requests overshoot the limit is out. So is the 24-hour TTL, which is represented only by the date in the key. One sequential request at a time is modelled.
- Quota.Serve: assumes a failed counter write leaves the store unchanged. A write that lands but still reports an error is not modelled.
- Quota.Identify: models the pro check as presence of `pro:<key>`, not truthiness of the stored string, and stored counters as the integers they parse to. An empty or non-numeric stored value is not modelled.
- JsText.Upper: covers ASCII letters only. JavaScript's full Unicode case mapping is not modelled.
- HackerNews.HandleHN: does not model the `RangeError` that `toISOString` throws for a story without a `time`, or a topic that names an `Object.prototype` property.
- Drugs.TargetMode: takes the ChEMBL replies as typed lists, so it cannot express a `null` element in `targets` (read as `t.organism` at `src/index.js:486-489`, or as `best.target_chembl_id` when it is the fallback `targets[0]`), a `null` component or synonym entry, a `component_synonym` that is present but not a string (`src/index.js:487`), or a `null` element in `mechanisms` (`m.molecule_chembl_id` at `src/index.js:504`). Each of these throws outside any `try`, so the handler's promise rejects. In the model, rejection comes only from a thrown search or mechanisms call.
- Drugs.NameMode: takes the name hits as a typed list, so it cannot express a `null` hit, whose `m.molecule_properties` at `src/index.js:559` throws and rejects the handler's promise. In the model, rejection comes only from a thrown search.
- Drugs.NameMode: reports only `chembl_id`, `name`, `type` and `url` of each molecule. It drops `max_phase`, `phase_label`, `first_approval`, `oral`, `parenteral`, `topical`, `natural_product`, `molecular_formula`, `molecular_weight`, `alogp`, `hba`, `hbd`, `psa` and `num_ro5_violations`. These are passed through or derived per molecule and do not affect any other field or the outcome.
- Crypto.CoinLookup: models the price map as a Dafny map, so `!data[coin]` is taken to mean "the coin is absent". It does not model a coin id naming an inherited `Object.prototype` property such as `constructor`, which the source treats as present, and a present entry whose value is falsy.
- Drugs.Aggregate: does not model JavaScript object-key coercion in the name map, such as an id that names an `Object.prototype` property.
- Crypto.TopCoins: does not model a CoinCap `data` that is truthy but not an array, or list elements that are `null`. Either makes the mapping throw, and the throw is swallowed.
- Truncation.Abstract: counts characters as Unicode code points, where JavaScript's `length` and `substring` count UTF-16 code units. Text outside the Basic Multilingual Plane is therefore cut later than the source cuts it, and never in the middle of a surrogate pair. Dafny strings cannot hold lone surrogates.
- Truncation.Cut: reports `length` and `truncated` in Unicode code points, not UTF-16 code units, for the same reason. For example, for one emoji and `?max=1` the source reports length 2, truncated, and half a surrogate pair.
- JsText.Prefix: clamps and cuts in Unicode code points, not UTF-16 code units, for the same reason.
- PageExtract.HandleExtract: inherits the code-point counting of `Truncation.Cut` for `content`, `length` and `truncated`.
- PageExtract.HandleExtract: the content-type test is the case-sensitive `includes` of the source. Header normalisation by the runtime is not modelled.

=== FILE: chain.dfy ===
/**
 * Ordered-candidate evaluation with early exit: the routine behind both the
 * fallback chain (first upstream that answers wins) and target resolution
 * (first candidate that meets a tier wins).
 */
module Chain {
  import opened Wrappers

  /** The index of the first element of `xs` satisfying `p`. */
  function FindFirst<T>(xs: seq<T>, p: T -> bool): (r: Option<nat>)
    ensures r.Some? ==> r.value < |xs| && p(xs[r.value])
    ensures r.Some? ==> forall j :: 0 <= j < r.value ==> !p(xs[j])
    ensures r.None? <==> forall j :: 0 <= j < |xs| ==> !p(xs[j])
  {
    if xs == [] then None
    else if p(xs[0]) then Some(0)
    else
      match FindFirst(xs[1..], p)
      case None => None
      case Some(i) => Some(i + 1)
  }

  /** The position and value of the first attempt that produced a value. */
  function FirstSome<T>(attempts: seq<Option<T>>): (r: Option<(nat, T)>)
    ensures r.Some? ==> r.value.0 < |attempts| && attempts[r.value.0] == Some(r.value.1)
    ensures r.Some? ==> forall j :: 0 <= j < r.value.0 ==> attempts[j].None?
    ensures r.None? <==> forall j :: 0 <= j < |attempts| ==> attempts[j].None?
  {
    match FindFirst(attempts, (a: Option<T>) => a.Some?)
    case None => None
    case Some(i) => Some((i, attempts[i].value))
  }
}

=== FILE: crypto.dfy ===
/**
 * The `/api/crypto` handler: two fallback chains over CoinGecko and CoinCap.
 * The top-coins list tries CoinGecko's markets first and CoinCap's assets
 * second, with either failure swallowed; a single-coin lookup falls back the
 * same way but lets a thrown call escape.
 */
module Crypto {
  import opened Wrappers
  import opened Envelope
  import opened JsText
  import Chain

  /** The market figures of one coin. CoinCap sends them as strings that the
      handler parses; here they arrive already parsed. */
  datatype Quote = Quote(
    price: Option<real>,
    change24h: Option<real>,
    marketCap: Option<real>,
    volume24h: Option<real>,
    rank: Option<int>)

  /** One coin of either upstream's list. */
  datatype Listing = Listing(id: Option<string>, symbol: Option<string>, name: Option<string>, quote: Quote)

  /** One coin of the response; the same shape whichever upstream answered. */
  datatype Coin = Coin(id: Option<string>, symbol: Option<string>, name: Option<string>, quote: Quote)

  datatype Source = CoinGecko | CoinCap

  datatype CoinList = CoinList(coins: seq<Coin>, source: Source)

  datatype CoinPrice = CoinPrice(coin: string, quote: Quote, source: Source)

  datatype CryptoReply = Top(list: CoinList) | Single(price: CoinPrice)

  /** The upstream calls, as functions of what the handler sends them. A list reply
      is `None` when CoinGecko's body is not an array or CoinCap's has no `data`. */
  datatype Feeds = Feeds(
    markets: int -> Fetched<Option<seq<Listing>>>,      // CoinGecko `/coins/markets`
    assets: int -> Fetched<Option<seq<Listing>>>,       // CoinCap `/assets`
    simplePrice: string -> Fetched<map<string, Quote>>, // CoinGecko `/simple/price`
    asset: string -> Fetched<Option<Quote>>)            // CoinCap `/assets/<coin>`

  const DefaultLimit := 10
  const MaxLimit := 25

  /** A CoinGecko market entry as reported: the symbol is upper-cased. */
  function FromGecko(c: Listing): (r: Coin)
    ensures r.id == c.id && r.name == c.name && r.quote == c.quote
    ensures r.symbol.Some? <==> c.symbol.Some?
    ensures r.symbol.Some? ==>
      |r.symbol.value| == |c.symbol.value|
      && forall k :: 0 <= k < |c.symbol.value| ==> r.symbol.value[k] == UpperChar(c.symbol.value[k])
  {
    Coin(c.id, if c.symbol.Some? then Some(Upper(c.symbol.value)) else None, c.name, c.quote)
  }

  /** A CoinCap asset as reported: the symbol is passed through as sent. */
  function FromCap(c: Listing): (r: Coin)
    ensures r.id == c.id && r.name == c.name && r.quote == c.quote && r.symbol == c.symbol
  {
    Coin(c.id, c.symbol, c.name, c.quote)
  }

  /** The two sources report the same entry alike except for the symbol's case: an
      upper-case (or missing) symbol comes out the same from both. */
  lemma SourcesDifferOnlyInCase(c: Listing)
    ensures FromGecko(c).(symbol := None) == FromCap(c).(symbol := None)
    ensures (c.symbol.None? || Upper(c.symbol.value) == c.symbol.value) ==> FromGecko(c) == FromCap(c)
  {
  }

  /** CoinGecko answered with a non-empty array. */
  predicate GeckoUsable(reply: Fetched<Option<seq<Listing>>>) {
    reply.Got? && reply.body.Some? && |reply.body.value| > 0
  }

  /** CoinCap answered with a `data` field; an empty list still counts. */
  predicate CapUsable(reply: Fetched<Option<seq<Listing>>>) {
    reply.Got? && reply.body.Some?
  }

  function GeckoAttempt(reply: Fetched<Option<seq<Listing>>>): Option<seq<Coin>> {
    if GeckoUsable(reply) then
      var cs := reply.body.value;
      Some(seq(|cs|, i requires 0 <= i < |cs| => FromGecko(cs[i])))
    else None
  }

  function CapAttempt(reply: Fetched<Option<seq<Listing>>>): Option<seq<Coin>> {
    if CapUsable(reply) then
      var cs := reply.body.value;
      Some(seq(|cs|, i requires 0 <= i < |cs| => FromCap(cs[i])))
    else None
  }

  /** The top-coins fallback chain. */
  function TopCoins(limit: int, feeds: Feeds): (r: Outcome<CoinList>)
    ensures r.Ok? && r.value.source == CoinGecko <==> GeckoUsable(feeds.markets(limit))
    ensures r.Ok? && r.value.source == CoinCap <==>
      !GeckoUsable(feeds.markets(limit)) && CapUsable(feeds.assets(limit))
    ensures r.Fail? <==> !GeckoUsable(feeds.markets(limit)) && !CapUsable(feeds.assets(limit))
    ensures r.Fail? ==> r.status == UpstreamUnavailable
    ensures r.Ok? ==>
      var listing := (if r.value.source == CoinGecko then feeds.markets(limit) else feeds.assets(limit)).body.value;
      |r.value.coins| == |listing|
      && forall i :: 0 <= i < |listing| ==>
           r.value.coins[i].id == listing[i].id && r.value.coins[i].name == listing[i].name
           && r.value.coins[i].quote == listing[i].quote
           && r.value.coins[i] == (if r.value.source == CoinGecko then FromGecko(listing[i])
                                   else FromCap(listing[i]))
  {
    var attempts := [GeckoAttempt(feeds.markets(limit)), CapAttempt(feeds.assets(limit))];
    match Chain.FirstSome(attempts)
    case Some((i, coins)) => Ok(CoinList(coins, if i == 0 then CoinGecko else CoinCap))
    case None =>
      assert attempts[0].None? && attempts[1].None?;
      Fail(UpstreamUnavailable)
  }

  /** When CoinGecko answers, CoinCap is never consulted: its reply cannot change the result. */
  lemma GeckoFirst(limit: int, feeds: Feeds, assets: int -> Fetched<Option<seq<Listing>>>)
    requires GeckoUsable(feeds.markets(limit))
    ensures TopCoins(limit, feeds) == TopCoins(limit, feeds.(assets := assets))
  {
  }

  /** The single-coin lookup: CoinGecko's price map, then CoinCap's asset. */
  function CoinLookup(coin: string, feeds: Feeds): (r: Outcome<CoinPrice>)
    ensures r.Ok? ==> r.value.coin == coin
    ensures feeds.simplePrice(coin).Got? && coin in feeds.simplePrice(coin).body ==>
      r == Ok(CoinPrice(coin, feeds.simplePrice(coin).body[coin].(rank := None), CoinGecko))
    ensures r.Ok? && r.value.source == CoinCap <==>
      feeds.simplePrice(coin).Got? && coin !in feeds.simplePrice(coin).body
      && feeds.asset(coin).Got? && feeds.asset(coin).body.Some?
    ensures r == Fail(NotFound) <==>
      feeds.simplePrice(coin).Got? && coin !in feeds.simplePrice(coin).body
      && feeds.asset(coin) == Got(None)
    ensures r.Ok? && r.value.source == CoinGecko <==>
      feeds.simplePrice(coin).Got? && coin in feeds.simplePrice(coin).body
    ensures (feeds.simplePrice(coin).Got? && coin !in feeds.simplePrice(coin).body
             && feeds.asset(coin).Got? && feeds.asset(coin).body.Some?) ==>
      r == Ok(CoinPrice(coin, feeds.asset(coin).body.value, CoinCap))
    ensures feeds.simplePrice(coin).Threw? ==> r == Fail(Rejected)
    ensures (feeds.simplePrice(coin).Got? && coin !in feeds.simplePrice(coin).body
             && feeds.asset(coin).Threw?) ==> r == Fail(Rejected)
    ensures r.Fail? ==> r.status in {NotFound, Rejected}
  {
    match feeds.simplePrice(coin)
    case Threw => Fail(Rejected)
    case Got(data) =>
      if coin in data then Ok(CoinPrice(coin, data[coin].(rank := None), CoinGecko))
      else
        match feeds.asset(coin)
        case Threw => Fail(Rejected)
        case Got(None) => Fail(NotFound)
        case Got(Some(q)) => Ok(CoinPrice(coin, q, CoinCap))
  }

  /** The whole handler: `?coin=` selects the single lookup, otherwise the list. */
  function HandleCrypto(coin: Option<string>, limitParam: Option<int>, feeds: Feeds): (r: Outcome<CryptoReply>)
    ensures Truthy(coin) ==> (r.Ok? <==> CoinLookup(coin.value, feeds).Ok?)
    ensures Truthy(coin) && r.Ok? ==> r.value == Single(CoinLookup(coin.value, feeds).value)
    ensures !Truthy(coin) ==>
      var limit := IntParam(limitParam, DefaultLimit, MaxLimit);
      limit <= MaxLimit && (r.Ok? <==> TopCoins(limit, feeds).Ok?)
      && (r.Ok? ==> r.value == Top(TopCoins(limit, feeds).value))
    ensures Truthy(coin) && r.Fail? ==> r == Fail(CoinLookup(coin.value, feeds).status)
    ensures !Truthy(coin) && r.Fail? ==> r == Fail(UpstreamUnavailable)
    ensures r.Fail? ==> r.status != BadRequest
  {
    if Truthy(coin) then
      match CoinLookup(coin.value, feeds)
      case Ok(p) => Ok(Single(p))
      case Fail(s) => Fail(s)
    else
      match TopCoins(IntParam(limitParam, DefaultLimit, MaxLimit), feeds)
      case Ok(l) => Ok(Top(l))
      case Fail(s) => Fail(s)
  }
}

=== FILE: dedup.dfy ===
/**
 * First-occurrence deduplication of the mechanisms returned for a resolved
 * target: walk them in upstream order, keep the first mechanism of each
 * molecule, and stop once `limit` molecules are kept.
 */
module Dedup {
  import opened Wrappers
  import JsText
  import Chain

  /** One record of the mechanism endpoint. */
  datatype Mechanism = Mechanism(
    moleculeId: string,             // `molecule_chembl_id`, the dedup key
    moleculeName: Option<string>,
    action: Option<string>,         // `mechanism_of_action`
    actionType: Option<string>,
    maxPhase: Option<string>)

  function Ids(ms: seq<Mechanism>): set<string> {
    set m | m in ms :: m.moleculeId
  }

  predicate DistinctIds(ms: seq<Mechanism>) {
    forall i, j :: 0 <= i < j < |ms| ==> ms[i].moleculeId != ms[j].moleculeId
  }

  /** `a` is `b` with some elements left out, order kept. */
  ghost predicate Subsequence<T>(a: seq<T>, b: seq<T>)
    decreases |b|
  {
    if a == [] then true
    else if b == [] then false
    else (a[0] == b[0] && Subsequence(a[1..], b[1..])) || Subsequence(a, b[1..])
  }

  /** The first mechanism of `ms` about molecule `id`. */
  function FirstWith(ms: seq<Mechanism>, id: string): Option<Mechanism> {
    if ms == [] then None
    else if ms[0].moleculeId == id then Some(ms[0])
    else FirstWith(ms[1..], id)
  }

  /** The position of the first mechanism of `ms` about molecule `id`, or `|ms|`
      when there is none. */
  function FirstIndex(ms: seq<Mechanism>, id: string): (r: nat)
    ensures r <= |ms|
    ensures r < |ms| ==> ms[r].moleculeId == id
    ensures forall j :: 0 <= j < r ==> ms[j].moleculeId != id
    ensures r < |ms| <==> id in Ids(ms)
  {
    match Chain.FindFirst(ms, (m: Mechanism) => m.moleculeId == id)
    case None => |ms|
    case Some(i) => assert ms[i] in ms; i
  }

  /** Walks `ms` keeping each molecule's first mechanism, skipping molecules in `seen`. */
  function Unseen(ms: seq<Mechanism>, seen: set<string>): seq<Mechanism>
    decreases |ms|
  {
    if ms == [] then []
    else if ms[0].moleculeId in seen then Unseen(ms[1..], seen)
    else [ms[0]] + Unseen(ms[1..], seen + {ms[0].moleculeId})
  }

  /** The reference definition: every molecule's first mechanism, in upstream order. */
  function FirstOccurrences(ms: seq<Mechanism>): seq<Mechanism> {
    Unseen(ms, {})
  }

  /** The loop pushes before it tests `length >= limit`, so at least one molecule
      is kept whatever the limit. */
  function Bound(limit: int): nat {
    if limit < 1 then 1 else limit
  }

  /** What the deduplication loop keeps. */
  function KeepFirst(ms: seq<Mechanism>, limit: int): seq<Mechanism> {
    var f := FirstOccurrences(ms);
    f[..JsText.Min(Bound(limit), |f|)]
  }

  lemma IdsCons(m: Mechanism, ms: seq<Mechanism>)
    ensures Ids([m] + ms) == {m.moleculeId} + Ids(ms)
  {
    assert forall x :: x in [m] + ms <==> x == m || x in ms;
  }

  lemma IdsUncons(ms: seq<Mechanism>)
    requires ms != []
    ensures Ids(ms) == {ms[0].moleculeId} + Ids(ms[1..])
  {
    assert ms == [ms[0]] + ms[1..];
    IdsCons(ms[0], ms[1..]);
  }

  /** Kept molecules are pairwise distinct and none of them was already seen. */
  lemma {:induction false} UnseenIsDistinct(ms: seq<Mechanism>, seen: set<string>)
    ensures forall i :: 0 <= i < |Unseen(ms, seen)| ==> Unseen(ms, seen)[i].moleculeId !in seen
    ensures DistinctIds(Unseen(ms, seen))
    decreases |ms|
  {
    if ms != [] {
      if ms[0].moleculeId in seen {
        UnseenIsDistinct(ms[1..], seen);
      } else {
        UnseenIsDistinct(ms[1..], seen + {ms[0].moleculeId});
      }
    }
  }

  /** Every molecule not already seen is kept. */
  lemma {:induction false} UnseenIds(ms: seq<Mechanism>, seen: set<string>)
    ensures Ids(Unseen(ms, seen)) == Ids(ms) - seen
    decreases |ms|
  {
    if ms != [] {
      IdsUncons(ms);
      if ms[0].moleculeId in seen {
        UnseenIds(ms[1..], seen);
      } else {
        var id := ms[0].moleculeId;
        UnseenIds(ms[1..], seen + {id});
        IdsCons(ms[0], Unseen(ms[1..], seen + {id}));
      }
    }
  }

  /** The kept mechanisms appear in `ms`, in the same order. */
  lemma {:induction false} UnseenIsSubsequence(ms: seq<Mechanism>, seen: set<string>)
    ensures Subsequence(Unseen(ms, seen), ms)
    decreases |ms|
  {
    if ms != [] {
      if ms[0].moleculeId in seen {
        UnseenIsSubsequence(ms[1..], seen);
      } else {
        UnseenIsSubsequence(ms[1..], seen + {ms[0].moleculeId});
        assert Unseen(ms, seen)[1..] == Unseen(ms[1..], seen + {ms[0].moleculeId});
      }
    }
  }

  /** Each kept mechanism is the first one its molecule has in `ms`. */
  lemma {:induction false} UnseenKeepsFirst(ms: seq<Mechanism>, seen: set<string>)
    ensures forall i :: 0 <= i < |Unseen(ms, seen)| ==>
      FirstWith(ms, Unseen(ms, seen)[i].moleculeId) == Some(Unseen(ms, seen)[i])
    decreases |ms|
  {
    if ms != [] {
      var id := ms[0].moleculeId;
      var seen' := if id in seen then seen else seen + {id};
      UnseenKeepsFirst(ms[1..], seen');
      UnseenIsDistinct(ms[1..], seen');
      var rest := Unseen(ms[1..], seen');
      assert forall i :: 0 <= i < |rest| ==> rest[i].moleculeId != id;
    }
  }

  lemma FirstIndexTail(ms: seq<Mechanism>, id: string)
    requires ms != [] && ms[0].moleculeId != id
    ensures FirstIndex(ms, id) == 1 + FirstIndex(ms[1..], id)
  {
    var r' := FirstIndex(ms[1..], id);
    forall j | 0 < j < r' + 1
      ensures ms[j].moleculeId != id
    {
      assert ms[j] == ms[1..][j - 1];
    }
    if r' < |ms| - 1 {
      assert ms[r' + 1] == ms[1..][r'];
    }
  }

  /** Molecules of `k` come in the order of their first records in `ms`. */
  predicate InFirstSeenOrder(ms: seq<Mechanism>, k: seq<Mechanism>) {
    forall i, j :: 0 <= i < j < |k| ==>
      FirstIndex(ms, k[i].moleculeId) < FirstIndex(ms, k[j].moleculeId)
  }

  /** Every mechanism of `ms` before the first record of a molecule of `k` is about
      a molecule of `k`: `k` holds the molecules that appear first. */
  predicate SeenFirstAreKept(ms: seq<Mechanism>, k: seq<Mechanism>) {
    forall j, q :: 0 <= j < |ms| && 0 <= q < |k| && j < FirstIndex(ms, k[q].moleculeId) ==>
      ms[j].moleculeId in Ids(k)
  }

  /** The kept mechanisms come in the order of their molecules' first records. */
  lemma {:induction false} UnseenOrdered(ms: seq<Mechanism>, seen: set<string>)
    ensures InFirstSeenOrder(ms, Unseen(ms, seen))
    decreases |ms|
  {
    if ms != [] {
      var id := ms[0].moleculeId;
      var seen' := if id in seen then seen else seen + {id};
      UnseenOrdered(ms[1..], seen');
      UnseenIsDistinct(ms[1..], seen');
      var rest := Unseen(ms[1..], seen');
      var u := Unseen(ms, seen);
      var d := if id in seen then 0 else 1;
      assert u == if id in seen then rest else [ms[0]] + rest;
      forall i, j | 0 <= i < j < |u|
        ensures FirstIndex(ms, u[i].moleculeId) < FirstIndex(ms, u[j].moleculeId)
      {
        assert u[j] == rest[j - d];
        FirstIndexTail(ms, u[j].moleculeId);
        if i >= d {
          assert u[i] == rest[i - d];
          FirstIndexTail(ms, u[i].moleculeId);
        }
      }
    }
  }

  lemma {:induction false} DistinctCard(xs: seq<Mechanism>)
    requires DistinctIds(xs)
    ensures |Ids(xs)| == |xs|
  {
    if xs != [] {
      IdsUncons(xs);
      DistinctCard(xs[1..]);
      assert xs[0].moleculeId !in Ids(xs[1..]);
    }
  }

  lemma {:induction false} SubsequencePrefix<T>(a: seq<T>, b: seq<T>, k: nat)
    requires Subsequence(a, b) && k <= |a|
    ensures Subsequence(a[..k], b)
    decreases |b|
  {
    if k > 0 {
      if a[0] == b[0] && Subsequence(a[1..], b[1..]) {
        SubsequencePrefix(a[1..], b[1..], k - 1);
        assert a[..k][1..] == a[1..][..k - 1];
      } else {
        SubsequencePrefix(a, b[1..], k);
      }
    }
  }

  /** The reference definition keeps exactly one mechanism per molecule: its first,
      in the order in which the molecules first appear. */
  lemma FirstOccurrencesSpec(ms: seq<Mechanism>)
    ensures var f := FirstOccurrences(ms);
      && DistinctIds(f) && Subsequence(f, ms) && Ids(f) == Ids(ms) && |f| == |Ids(ms)|
      && (forall i :: 0 <= i < |f| ==> FirstWith(ms, f[i].moleculeId) == Some(f[i]))
      && InFirstSeenOrder(ms, f)
  {
    UnseenIsDistinct(ms, {});
    UnseenIds(ms, {});
    UnseenIsSubsequence(ms, {});
    UnseenKeepsFirst(ms, {});
    UnseenOrdered(ms, {});
    DistinctCard(FirstOccurrences(ms));
  }

  /** A mechanism before the first record of a kept molecule belongs to a kept
      molecule: the loop keeps the first molecules, not just some of them. */
  lemma KeptPrefixClosed(ms: seq<Mechanism>, limit: int, j: nat, q: nat)
    requires j < |ms| && q < |KeepFirst(ms, limit)|
    requires j < FirstIndex(ms, KeepFirst(ms, limit)[q].moleculeId)
    ensures ms[j].moleculeId in Ids(KeepFirst(ms, limit))
  {
    var f := FirstOccurrences(ms);
    var k := KeepFirst(ms, limit);
    UnseenIds(ms, {});
    UnseenOrdered(ms, {});
    assert ms[j] in ms;
    assert ms[j].moleculeId in Ids(f);
    var p :| 0 <= p < |f| && f[p] in f && f[p].moleculeId == ms[j].moleculeId;
    assert FirstIndex(ms, f[p].moleculeId) <= j;
    assert k[q] == f[q];
    assert p < q;
    assert k[p] == f[p];
    assert k[p] in k;
  }

  lemma KeepFirstShape(ms: seq<Mechanism>, limit: int)
    ensures var k := KeepFirst(ms, limit);
      && DistinctIds(k) && Subsequence(k, ms)
      && (forall i :: 0 <= i < |k| ==> FirstWith(ms, k[i].moleculeId) == Some(k[i]))
      && |k| == JsText.Min(Bound(limit), |Ids(ms)|)
      && Ids(k) <= Ids(ms)
      && (|Ids(ms)| <= Bound(limit) ==> Ids(k) == Ids(ms))
  {
    var f := FirstOccurrences(ms);
    FirstOccurrencesSpec(ms);
    var n := JsText.Min(Bound(limit), |f|);
    SubsequencePrefix(f, ms, n);
    assert forall m :: m in f[..n] ==> m in f;
  }

  lemma KeepFirstOrder(ms: seq<Mechanism>, limit: int)
    ensures InFirstSeenOrder(ms, KeepFirst(ms, limit))
    ensures SeenFirstAreKept(ms, KeepFirst(ms, limit))
  {
    var k := KeepFirst(ms, limit);
    FirstOccurrencesSpec(ms);
    forall j, q | 0 <= j < |ms| && 0 <= q < |k| && j < FirstIndex(ms, k[q].moleculeId)
      ensures ms[j].moleculeId in Ids(k)
    {
      KeptPrefixClosed(ms, limit, j, q);
    }
  }

  /** What the loop keeps: distinct molecules, each by its first mechanism, in the
      order of their first records, `min(max(limit, 1), #molecules)` of them, with
      no molecule skipped in favour of a later one, and all molecules when they fit. */
  lemma KeepFirstSpec(ms: seq<Mechanism>, limit: int)
    ensures var k := KeepFirst(ms, limit);
      && DistinctIds(k) && Subsequence(k, ms)
      && (forall i :: 0 <= i < |k| ==> FirstWith(ms, k[i].moleculeId) == Some(k[i]))
      && |k| == JsText.Min(Bound(limit), |Ids(ms)|)
      && Ids(k) <= Ids(ms)
      && (|Ids(ms)| <= Bound(limit) ==> Ids(k) == Ids(ms))
      && InFirstSeenOrder(ms, k)
      && SeenFirstAreKept(ms, k)
  {
    KeepFirstShape(ms, limit);
    KeepFirstOrder(ms, limit);
  }

  /** One step of the loop keeps its invariant: a molecule already seen is skipped,
      a new one is appended and remembered. */
  lemma DedupStep(ms: seq<Mechanism>, i: nat, seen: set<string>, raw: seq<Mechanism>)
    requires i < |ms| && seen == Ids(raw)
    requires raw + Unseen(ms[i..], seen) == FirstOccurrences(ms)
    ensures ms[i].moleculeId in seen ==> raw + Unseen(ms[i + 1..], seen) == FirstOccurrences(ms)
    ensures ms[i].moleculeId !in seen ==>
      && Ids(raw + [ms[i]]) == seen + {ms[i].moleculeId}
      && (raw + [ms[i]]) + Unseen(ms[i + 1..], seen + {ms[i].moleculeId}) == FirstOccurrences(ms)
  {
    assert ms[i..][0] == ms[i] && ms[i..][1..] == ms[i + 1..];
    assert forall x :: x in raw + [ms[i]] <==> x in raw || x == ms[i];
  }

  /** A prefix of the reference walk that stopped at the bound, or that consumed
      everything below it, is what the loop keeps. */
  lemma KeepFirstOfPrefix(ms: seq<Mechanism>, limit: int, raw: seq<Mechanism>, rest: seq<Mechanism>)
    requires raw + rest == FirstOccurrences(ms)
    requires |raw| == Bound(limit) || (rest == [] && |raw| < Bound(limit))
    ensures raw == KeepFirst(ms, limit)
  {
    var f := FirstOccurrences(ms);
    assert |raw| <= |f|;
    assert raw == f[..|raw|];
  }

  /** The deduplication loop as the handler runs it. */
  method DedupMechanisms(ms: seq<Mechanism>, limit: int) returns (raw: seq<Mechanism>)
    ensures raw == KeepFirst(ms, limit)
    ensures DistinctIds(raw) && Subsequence(raw, ms)
    ensures forall i :: 0 <= i < |raw| ==> FirstWith(ms, raw[i].moleculeId) == Some(raw[i])
    ensures |raw| == JsText.Min(Bound(limit), |Ids(ms)|)
  {
    var seen: set<string> := {};
    raw := [];
    var i := 0;
    while i < |ms|
      invariant 0 <= i <= |ms|
      invariant seen == Ids(raw)
      invariant raw + Unseen(ms[i..], seen) == FirstOccurrences(ms)
      invariant |raw| < Bound(limit)
    {
      var m := ms[i];
      DedupStep(ms, i, seen, raw);
      if m.moleculeId in seen {
        i := i + 1;
        continue;
      }
      seen := seen + {m.moleculeId};
      raw := raw + [m];
      i := i + 1;
      if |raw| >= limit {
        assert |raw| == Bound(limit);
        break;
      }
    }
    KeepFirstOfPrefix(ms, limit, raw, Unseen(ms[i..], seen));
    KeepFirstSpec(ms, limit);
  }
}

=== FILE: drugs.dfy ===
/**
 * The `/api/drugs` handler: a resolve-then-aggregate pipeline over ChEMBL.
 * In target mode a gene/target name is resolved to one target, its mechanisms
 * are deduplicated by molecule, and missing molecule names are filled in
 * from one best-effort batch lookup. In name mode molecules are searched
 * directly.
 */
module Drugs {
  import opened Wrappers
  import opened Envelope
  import opened JsText
  import opened Targets
  import opened Dedup

  const TargetSearchSize := 15
  const ReportCardPrefix := "https://www.ebi.ac.uk/chembl/compound_report_card/"

  /** One record of the batch molecule lookup. */
  datatype Molecule = Molecule(moleculeId: string, prefName: Option<string>)

  /** The batch lookup as the handler sees it. `BatchFailed` covers a thrown fetch
      or an unparseable body (both swallowed by its try/catch); a `None` entry is a
      `null` record, whose field access throws and ends the loop, keeping the names
      recorded before it. A missing `molecules` field reads as the empty list. */
  datatype BatchReply = BatchFailed | BatchMolecules(molecules: seq<Option<Molecule>>)

  /** One result of the name search. */
  datatype MoleculeHit = MoleculeHit(moleculeId: string, prefName: Option<string>, moleculeType: Option<string>)

  /** The four ChEMBL endpoints, as functions of the request parameters the handler
      sends them; a missing list field in a reply is `None`. */
  datatype Chembl = Chembl(
    searchTargets: (string, int) -> Fetched<Option<seq<Target>>>,
    mechanisms: (string, int) -> Fetched<Option<seq<Mechanism>>>,
    moleculeSet: seq<string> -> BatchReply,
    searchMolecules: (string, int) -> Fetched<Option<seq<MoleculeHit>>>)

  datatype Drug = Drug(
    name: Option<string>,
    chemblId: string,
    mechanism: Option<string>,
    actionType: Option<string>,
    maxPhase: Option<string>,
    url: string)

  datatype MoleculeOut = MoleculeOut(chemblId: string, name: Option<string>, moleculeType: Option<string>, url: string)

  datatype DrugsReply =
    | ByTarget(query: string, targetName: Option<string>, targetType: Option<string>,
               organism: Option<string>, targetChemblId: string, drugs: seq<Drug>)
    | ByName(query: string, molecules: seq<MoleculeOut>)

  /** The records the batch loop gets through before a `null` one stops it. */
  function UntilNull(mols: seq<Option<Molecule>>): (r: seq<Molecule>)
    ensures |r| <= |mols|
    ensures forall i :: 0 <= i < |r| ==> mols[i] == Some(r[i])
    ensures |r| < |mols| ==> mols[|r|].None?
  {
    if mols == [] || mols[0].None? then [] else [mols[0].value] + UntilNull(mols[1..])
  }

  /** `nameMap[mol.molecule_chembl_id] = mol.pref_name` over `mols` in order. */
  function NameMap(mols: seq<Molecule>): map<string, Option<string>> {
    if mols == [] then map[]
    else
      var last := mols[|mols| - 1];
      NameMap(mols[..|mols| - 1])[last.moleculeId := last.prefName]
  }

  /** The map has an entry for exactly the molecules of the batch. */
  lemma {:induction false} NameMapKeys(mols: seq<Molecule>)
    ensures NameMap(mols).Keys == set x | x in mols :: x.moleculeId
  {
    if mols != [] {
      var init := mols[..|mols| - 1];
      NameMapKeys(init);
      assert mols == init + [mols[|mols| - 1]];
      assert forall x :: x in mols <==> x in init || x == mols[|mols| - 1];
    }
  }

  /** A later record for the same molecule overwrites an earlier one: the name
      recorded is that of the molecule's last record. */
  lemma {:induction false} NameMapLastWins(mols: seq<Molecule>, i: nat)
    requires i < |mols|
    requires forall j :: i < j < |mols| ==> mols[j].moleculeId != mols[i].moleculeId
    ensures mols[i].moleculeId in NameMap(mols)
    ensures NameMap(mols)[mols[i].moleculeId] == mols[i].prefName
  {
    if i < |mols| - 1 {
      NameMapLastWins(mols[..|mols| - 1], i);
    }
  }

  /** The names a batch reply yields; a failed lookup yields none. */
  function BatchNames(reply: BatchReply): map<string, Option<string>> {
    match reply
    case BatchFailed => map[]
    case BatchMolecules(mols) => NameMap(UntilNull(mols))
  }

  /** `m.molecule_name || nameMap[m.molecule_chembl_id] || null` */
  function DrugName(m: Mechanism, names: map<string, Option<string>>): (r: Option<string>)
    ensures Truthy(m.moleculeName) ==> r == m.moleculeName
    ensures !Truthy(m.moleculeName) && m.moleculeId in names && Truthy(names[m.moleculeId]) ==>
      r == names[m.moleculeId]
    ensures r.None? <==>
      !Truthy(m.moleculeName) && !(m.moleculeId in names && Truthy(names[m.moleculeId]))
    ensures r.Some? ==> r.value != ""
  {
    if Truthy(m.moleculeName) then m.moleculeName
    else if m.moleculeId in names && Truthy(names[m.moleculeId]) then names[m.moleculeId]
    else None
  }

  function ReportCard(id: string): string {
    ReportCardPrefix + id + "/"
  }

  function ToDrug(m: Mechanism, names: map<string, Option<string>>): Drug {
    Drug(DrugName(m, names), m.moleculeId, m.action, m.actionType, m.maxPhase, ReportCard(m.moleculeId))
  }

  function MoleculeIds(ms: seq<Mechanism>): (r: seq<string>)
    ensures |r| == |ms| && forall i :: 0 <= i < |ms| ==> r[i] == ms[i].moleculeId
  {
    seq(|ms|, i requires 0 <= i < |ms| => ms[i].moleculeId)
  }

  /** Names for the kept mechanisms: one batch lookup for all of them, made only when
      something was kept. */
  function NamesFor(batch: seq<string> -> BatchReply, raw: seq<Mechanism>): map<string, Option<string>> {
    if |raw| > 0 then BatchNames(batch(MoleculeIds(raw))) else map[]
  }

  /** The drugs reported for the mechanisms of the chosen target: the deduplicated
      mechanisms, named from the mechanism record or else the batch lookup. */
  function Aggregate(ms: seq<Mechanism>, limit: int, batch: seq<string> -> BatchReply): (drugs: seq<Drug>)
    ensures |drugs| == |KeepFirst(ms, limit)| == Min(Bound(limit), |Ids(ms)|)
    ensures drugs == [] <==> ms == []
    ensures forall i, j :: 0 <= i < j < |drugs| ==> drugs[i].chemblId != drugs[j].chemblId
    ensures forall i :: 0 <= i < |drugs| ==>
      var m := KeepFirst(ms, limit)[i];
      && drugs[i].chemblId == m.moleculeId
      && FirstWith(ms, m.moleculeId) == Some(m)
      && drugs[i].mechanism == m.action && drugs[i].actionType == m.actionType
      && drugs[i].maxPhase == m.maxPhase
      && drugs[i].url == ReportCard(m.moleculeId)
    // the one batch lookup is asked for exactly the reported molecules, in order
    ensures var ids := seq(|drugs|, j requires 0 <= j < |drugs| => drugs[j].chemblId);
      && ids == MoleculeIds(KeepFirst(ms, limit))
      && forall i :: 0 <= i < |drugs| ==>
           drugs[i].name == DrugName(KeepFirst(ms, limit)[i], BatchNames(batch(ids)))
  {
    var raw := KeepFirst(ms, limit);
    KeepFirstSpec(ms, limit);
    assert ms != [] ==> ms[0].moleculeId in Ids(ms);
    var names := NamesFor(batch, raw);
    seq(|raw|, i requires 0 <= i < |raw| => ToDrug(raw[i], names))
  }

  /** The chosen target of a non-empty candidate list. */
  function Best(query: string, ts: seq<Target>): (t: Target)
    requires |ts| > 0
    ensures t in ts
  {
    ts[Resolve(query, ts).value]
  }

  /** Target mode: resolve, fetch the chosen target's mechanisms (asking for three
      per requested drug), aggregate. */
  function TargetMode(query: string, limit: int, api: Chembl): (r: Outcome<DrugsReply>)
    ensures r == Fail(NotFound) <==>
      api.searchTargets(query, TargetSearchSize) in {Got(None), Got(Some([]))}
    ensures api.searchTargets(query, TargetSearchSize).Threw? ==> r == Fail(Rejected)
    ensures r.Ok? ==>
      var best := Best(query, api.searchTargets(query, TargetSearchSize).body.value);
      && api.mechanisms(best.chemblId, limit * 3).Got?
      && r.value == ByTarget(query, best.prefName, best.targetType, best.organism, best.chemblId,
           Aggregate(api.mechanisms(best.chemblId, limit * 3).body.GetOr([]), limit, api.moleculeSet))
    ensures var found := api.searchTargets(query, TargetSearchSize);
      && (r.Ok? <==>
            found.Got? && found.body.Some? && |found.body.value| > 0
            && api.mechanisms(Best(query, found.body.value).chemblId, limit * 3).Got?)
      && (found.Got? && found.body.Some? && |found.body.value| > 0
          && api.mechanisms(Best(query, found.body.value).chemblId, limit * 3).Threw?
          ==> r == Fail(Rejected))
    // a target without mechanisms, or whose reply lacks the list, is an empty success
    ensures r.Ok? ==>
      var best := Best(query, api.searchTargets(query, TargetSearchSize).body.value);
      (api.mechanisms(best.chemblId, limit * 3).body.GetOr([]) == [] <==> r.value.drugs == [])
    ensures r.Fail? ==> r.status in {NotFound, Rejected}
  {
    match api.searchTargets(query, TargetSearchSize)
    case Threw => Fail(Rejected)
    case Got(None) => Fail(NotFound)
    case Got(Some(ts)) =>
      if |ts| == 0 then Fail(NotFound)
      else
        var best := Best(query, ts);
        match api.mechanisms(best.chemblId, limit * 3)
        case Threw => Fail(Rejected)
        case Got(found) =>
          Ok(ByTarget(query, best.prefName, best.targetType, best.organism, best.chemblId,
                      Aggregate(found.GetOr([]), limit, api.moleculeSet)))
  }
  /** Name mode: the molecules of the name search, in upstream order. */
  function NameMode(query: string, limit: int, api: Chembl): (r: Outcome<DrugsReply>)
    ensures api.searchMolecules(query, limit).Threw? <==> r == Fail(Rejected)
    ensures r.Ok? ==> r.value.ByName? && r.value.query == query
    ensures r.Ok? <==> api.searchMolecules(query, limit).Got?
    ensures r.Ok? ==>
      var hits := api.searchMolecules(query, limit).body.GetOr([]);
      |r.value.molecules| == |hits| &&
      forall i :: 0 <= i < |hits| ==>
        r.value.molecules[i].chemblId == hits[i].moleculeId
        && r.value.molecules[i].name == hits[i].prefName
        && r.value.molecules[i].moleculeType == hits[i].moleculeType
        && r.value.molecules[i].url == ReportCard(hits[i].moleculeId)
    // no hits, or a reply without a `molecules` list, is an empty success, not a 404
    ensures api.searchMolecules(query, limit) in {Got(None), Got(Some([]))} ==>
      r == Ok(ByName(query, []))
  {
    match api.searchMolecules(query, limit)
    case Threw => Fail(Rejected)
    case Got(found) =>
      var hits := found.GetOr([]);
      Ok(ByName(query, seq(|hits|, i requires 0 <= i < |hits| =>
        MoleculeOut(hits[i].moleculeId, hits[i].prefName, hits[i].moleculeType,
                    ReportCard(hits[i].moleculeId)))))
  }

  /** The whole handler: `?target=` wins over `?q=`; neither is a bad request. */
  function HandleDrugs(q: Option<string>, target: Option<string>, limitParam: Option<int>,
                       api: Chembl): (r: Outcome<DrugsReply>)
    ensures r == Fail(BadRequest) <==> !Truthy(q) && !Truthy(target)
    ensures Truthy(target) ==> r == TargetMode(target.value, IntParam(limitParam, 5, 10), api)
    ensures !Truthy(target) && Truthy(q) ==> r == NameMode(q.value, IntParam(limitParam, 5, 10), api)
  {
    var limit := IntParam(limitParam, 5, 10);
    if !Truthy(q) && !Truthy(target) then Fail(BadRequest)
    else if Truthy(target) then TargetMode(target.value, limit, api)
    else NameMode(q.value, limit, api)
  }

  /** The batch lookup is best effort: whatever it returns, the same drugs are
      reported in the same order, and when it fails each name is the mechanism's own
      `molecule_name` or null. */
  lemma BatchFailureIsSwallowed(ms: seq<Mechanism>, limit: int, batch: seq<string> -> BatchReply)
    ensures var failed := Aggregate(ms, limit, (ids: seq<string>) => BatchFailed);
      var drugs := Aggregate(ms, limit, batch);
      && |failed| == |drugs|
      && (forall i :: 0 <= i < |drugs| ==> failed[i].chemblId == drugs[i].chemblId)
      && forall i :: 0 <= i < |failed| ==>
           failed[i].name == (if Truthy(KeepFirst(ms, limit)[i].moleculeName)
                              then KeepFirst(ms, limit)[i].moleculeName else None)
  {
  }
}

=== FILE: envelope.dfy ===
/**
 * The outcome taxonomy shared by the endpoint handlers: a handler either
 * produces its domain result or fails with one of a few classified statuses.
 */
module Envelope {

  /** Why a handler produced no domain result. */
  datatype Status =
    | BadRequest            // 400: a required query parameter is missing or invalid
    | NotFound              // 404: resolution or lookup found nothing
    | UpstreamUnavailable   // 502: every upstream of a fallback chain failed
    | Rejected              // an upstream call threw outside any try/catch; the
                            // handler's promise rejects and the worker runtime, not
                            // the gateway's own catch, produces the error response

  /** What one endpoint handler returns. */
  datatype Outcome<+T> = Ok(value: T) | Fail(status: Status)

  /** One upstream call: either it threw (network failure, unparseable body) or it
      produced a parsed body. */
  datatype Fetched<+T> = Threw | Got(body: T)
}

=== FILE: extract.dfy ===
/**
 * The `/api/extract` handler: fetch a page and report its content cut at
 * `?max=` characters (at most 10000). JSON bodies are reported raw; HTML is
 * reduced to title, description and visible text by regex passes that the
 * model takes as one uninterpreted function.
 */
module PageExtract {
  import opened Wrappers
  import opened Envelope
  import opened JsText
  import opened Truncation

  const DefaultMax := 5000
  const MaxChars := 10000
  const JsonType := "application/json"

  /** The fetched response: its `content-type` header and its body text. */
  datatype Page = Page(contentType: Option<string>, body: string)

  /** What the regex passes make of an HTML body. */
  datatype HtmlParts = HtmlParts(title: Option<string>, description: Option<string>, text: string)

  datatype Extracted =
    | JsonPage(url: string, excerpt: Excerpt)
    | HtmlPage(url: string, title: Option<string>, description: Option<string>, excerpt: Excerpt)

  /** The whole handler; `isUrl` stands for `new URL(...)` not throwing. */
  function HandleExtract(urlParam: Option<string>, maxParam: Option<int>, isUrl: string -> bool,
                         fetchPage: string -> Fetched<Page>, parse: string -> HtmlParts): (r: Outcome<Extracted>)
    ensures r == Fail(BadRequest) <==> !Truthy(urlParam) || !isUrl(urlParam.value)
    ensures r == Fail(Rejected) <==>
      Truthy(urlParam) && isUrl(urlParam.value) && fetchPage(urlParam.value).Threw?
    ensures r.Ok? <==> Truthy(urlParam) && isUrl(urlParam.value) && fetchPage(urlParam.value).Got?
    ensures r.Ok? ==>
      var page := fetchPage(urlParam.value).body;
      var maxChars := IntParam(maxParam, DefaultMax, MaxChars);
      && fetchPage(urlParam.value).Got?
      && r.value.url == urlParam.value
      && |r.value.excerpt.content| <= MaxChars
      && (r.value.JsonPage? <==> Contains(page.contentType.GetOr(""), JsonType))
      && (r.value.JsonPage? ==> r.value.excerpt == Cut(page.body, maxChars))
      && (r.value.HtmlPage? ==>
            var parts := parse(page.body);
            && r.value.excerpt == Cut(parts.text, maxChars)
            && r.value.title == parts.title && r.value.description == parts.description)
  {
    if !Truthy(urlParam) || !isUrl(urlParam.value) then Fail(BadRequest)
    else
      var url := urlParam.value;
      var maxChars := IntParam(maxParam, DefaultMax, MaxChars);
      match fetchPage(url)
      case Threw => Fail(Rejected)
      case Got(page) =>
        if Contains(page.contentType.GetOr(""), JsonType) then
          Ok(JsonPage(url, Cut(page.body, maxChars)))
        else
          var parts := parse(page.body);
          Ok(HtmlPage(url, parts.title, parts.description, Cut(parts.text, maxChars)))
  }
}

=== FILE: hackernews.dfy ===
/**
 * The `/api/hn` handler: fetch the first 40 top stories, keep those with a
 * title that match the topic, order them by score (highest first, ties in
 * upstream order) and return the first `limit`.
 */
module HackerNews {
  import opened Wrappers
  import opened Envelope
  import opened JsText

  const BatchSize := 40
  const DefaultLimit := 15
  const MaxLimit := 30
  const DefaultTopic := "ai"
  const ItemPrefix := "https://news.ycombinator.com/item?id="

  /** One story item as the item endpoint returns it. */
  datatype Story = Story(
    id: string,
    title: Option<string>,
    url: Option<string>,
    score: Option<int>,
    descendants: Option<int>,
    time: int)

  /** The item call for one id: a thrown fetch is caught and reads as `null`, but a
      body that fails to parse rejects the whole batch; a deleted item is `null`. */
  datatype Item = FetchFailed | BodyUnreadable | Body(story: Option<Story>)

  /** The topic keyword patterns; an unknown topic falls back to `ai`. */
  datatype Pattern = AiPattern | CryptoPattern | DevPattern | SciencePattern | SecurityPattern | AllPattern

  datatype StoryOut = StoryOut(title: string, url: string, score: Option<int>, comments: int,
                               time: int, hnUrl: string)

  datatype Feed = Feed(topic: string, stories: seq<StoryOut>)

  function PatternOf(topic: string): Pattern {
    if topic == "ai" then AiPattern
    else if topic == "crypto" then CryptoPattern
    else if topic == "dev" then DevPattern
    else if topic == "science" then SciencePattern
    else if topic == "security" then SecurityPattern
    else if topic == "all" then AllPattern
    else AiPattern
  }

  /** `s.score || 0` */
  function Score(s: Story): int {
    s.score.GetOr(0)
  }

  /** The filter of the feed; `test` is the keyword regex test, left uninterpreted. */
  predicate Keep(s: Option<Story>, topic: string, test: (Pattern, string) -> bool) {
    && s.Some? && Truthy(s.value.title)
    && (|| topic == "all"
        || test(PatternOf(topic), s.value.title.value)
        || test(PatternOf(topic), s.value.url.GetOr("")))
  }

  /** The stories that pass the filter, in upstream order. */
  function Filter(xs: seq<Option<Story>>, topic: string, test: (Pattern, string) -> bool): (r: seq<Story>)
    ensures |r| <= |xs|
    ensures forall s :: s in r ==> Some(s) in xs && Keep(Some(s), topic, test)
    ensures forall i :: 0 <= i < |xs| && Keep(xs[i], topic, test) ==> xs[i].value in r
  {
    if xs == [] then []
    else
      var rest := Filter(xs[1..], topic, test);
      assert forall i :: 1 <= i < |xs| ==> xs[i] == xs[1..][i - 1];
      if Keep(xs[0], topic, test) then [xs[0].value] + rest else rest
  }

  /** `Array.filter` looks at one story at a time: a single story is kept as itself
      or dropped. */
  lemma FilterSingle(x: Option<Story>, topic: string, test: (Pattern, string) -> bool)
    ensures Filter([x], topic, test) == if Keep(x, topic, test) then [x.value] else []
  {
  }

  /** Filtering keeps upstream order and multiplicity: it distributes over
      concatenation. */
  lemma {:induction false} FilterAppend(a: seq<Option<Story>>, b: seq<Option<Story>>, topic: string,
                                        test: (Pattern, string) -> bool)
    ensures Filter(a + b, topic, test) == Filter(a, topic, test) + Filter(b, topic, test)
  {
    if a == [] {
      assert a + b == b;
    } else {
      var ab := a + b;
      assert ab[1..] == a[1..] + b && ab[0] == a[0];
      FilterAppend(a[1..], b, topic, test);
      var head := if Keep(a[0], topic, test) then [a[0].value] else [];
      assert Filter(ab, topic, test) == head + Filter(ab[1..], topic, test);
      assert Filter(a, topic, test) == head + Filter(a[1..], topic, test);
    }
  }

  predicate SortedByScore(xs: seq<Story>) {
    forall i, j :: 0 <= i < j < |xs| ==> Score(xs[i]) >= Score(xs[j])
  }

  /** Inserts `s` before the first story that it scores at least as high as. */
  function Insert(s: Story, sorted: seq<Story>): seq<Story> {
    if sorted == [] || Score(s) >= Score(sorted[0]) then [s] + sorted
    else [sorted[0]] + Insert(s, sorted[1..])
  }

  /** The comparator sort `(a, b) => (b.score || 0) - (a.score || 0)`: a stable sort,
      highest score first. */
  function SortByScore(xs: seq<Story>): seq<Story> {
    if xs == [] then [] else Insert(xs[0], SortByScore(xs[1..]))
  }

  /** Inserting adds exactly `s` and keeps everything else. */
  lemma {:induction false} InsertPerm(s: Story, sorted: seq<Story>)
    ensures multiset(Insert(s, sorted)) == multiset(sorted) + multiset{s}
  {
    if sorted != [] && Score(s) < Score(sorted[0]) {
      InsertPerm(s, sorted[1..]);
      assert sorted == [sorted[0]] + sorted[1..];
    }
  }

  /** A score bound on `s` and on every story of `xs` bounds every story after inserting. */
  lemma {:induction false} InsertBound(s: Story, xs: seq<Story>, b: int)
    requires Score(s) <= b
    requires forall i :: 0 <= i < |xs| ==> Score(xs[i]) <= b
    ensures forall i :: 0 <= i < |Insert(s, xs)| ==> Score(Insert(s, xs)[i]) <= b
  {
    if xs != [] && Score(s) < Score(xs[0]) {
      InsertBound(s, xs[1..], b);
    }
  }

  /** Inserting into a score-sorted list keeps it sorted and adds exactly `s`. */
  lemma {:induction false} InsertSpec(s: Story, sorted: seq<Story>)
    requires SortedByScore(sorted)
    ensures SortedByScore(Insert(s, sorted))
    ensures multiset(Insert(s, sorted)) == multiset(sorted) + multiset{s}
  {
    InsertPerm(s, sorted);
    if sorted != [] && Score(s) < Score(sorted[0]) {
      var tail := sorted[1..];
      InsertSpec(s, tail);
      var rest := Insert(s, tail);
      InsertBound(s, tail, Score(sorted[0]));
      var r := [sorted[0]] + rest;
      forall i, j | 0 <= i < j < |r|
        ensures Score(r[i]) >= Score(r[j])
      {
        assert r[j] == rest[j - 1];
        if i > 0 {
          assert r[i] == rest[i - 1];
        }
      }
    }
  }

  /** The stories of `xs` that score exactly `v`, in their order in `xs`. */
  function WithScore(xs: seq<Story>, v: int): seq<Story> {
    if xs == [] then []
    else (if Score(xs[0]) == v then [xs[0]] else []) + WithScore(xs[1..], v)
  }

  /** The inserted story goes ahead of every story already there with its own score. */
  lemma {:induction false} InsertWithScore(s: Story, xs: seq<Story>, v: int)
    ensures WithScore(Insert(s, xs), v) == (if Score(s) == v then [s] else []) + WithScore(xs, v)
  {
    var own := if Score(s) == v then [s] else [];
    if xs != [] && Score(s) < Score(xs[0]) {
      var tail := Insert(s, xs[1..]);
      InsertWithScore(s, xs[1..], v);
      var r := [xs[0]] + tail;
      assert r[0] == xs[0] && r[1..] == tail;
      var first := if Score(xs[0]) == v then [xs[0]] else [];
      assert WithScore(r, v) == first + WithScore(tail, v);
      assert WithScore(tail, v) == own + WithScore(xs[1..], v);
      assert Score(s) == v ==> first == [];
      assert WithScore(xs, v) == first + WithScore(xs[1..], v);
    } else {
      var r := [s] + xs;
      assert r[0] == s && r[1..] == xs;
      assert WithScore(r, v) == own + WithScore(xs, v);
    }
  }

  /** The sort is stable: for every score, the stories with that score appear in
      upstream order, as `Array.prototype.sort` keeps them for a comparator that
      returns 0. */
  lemma {:induction false} SortIsStable(xs: seq<Story>, v: int)
    ensures WithScore(SortByScore(xs), v) == WithScore(xs, v)
  {
    if xs != [] {
      SortIsStable(xs[1..], v);
      InsertWithScore(xs[0], SortByScore(xs[1..]), v);
    }
  }

  /** The sort orders by non-increasing score and only permutes. */
  lemma {:induction false} SortSpec(xs: seq<Story>)
    ensures SortedByScore(SortByScore(xs))
    ensures multiset(SortByScore(xs)) == multiset(xs)
  {
    if xs != [] {
      SortSpec(xs[1..]);
      InsertSpec(xs[0], SortByScore(xs[1..]));
      assert xs == [xs[0]] + xs[1..];
    }
  }

  /** Filter, sort, slice: what the feed reports, before reshaping. */
  function Select(stories: seq<Option<Story>>, topic: string, limit: int,
                  test: (Pattern, string) -> bool): (r: seq<Story>)
    ensures |r| <= |stories|
  {
    var kept := Filter(stories, topic, test);
    SortSpec(kept);
    assert |SortByScore(kept)| == |multiset(SortByScore(kept))| == |kept|;
    Slice(SortByScore(kept), limit)
  }

  /** Cutting a score-sorted list leaves nothing behind that outscores what was taken. */
  lemma TopOfSorted(sorted: seq<Story>, k: nat)
    requires SortedByScore(sorted) && k <= |sorted|
    ensures multiset(sorted[..k]) <= multiset(sorted)
    ensures forall x, y :: x in multiset(sorted) - multiset(sorted[..k]) && y in sorted[..k] ==>
      Score(x) <= Score(y)
  {
    assert sorted == sorted[..k] + sorted[k..];
    assert multiset(sorted) == multiset(sorted[..k]) + multiset(sorted[k..]);
    forall x, y | x in multiset(sorted) - multiset(sorted[..k]) && y in sorted[..k]
      ensures Score(x) <= Score(y)
    {
      assert x in multiset(sorted[k..]);
      var a :| 0 <= a < |sorted[k..]| && sorted[k..][a] == x;
      var b :| 0 <= b < k && sorted[b] == y;
      assert sorted[k + a] == x;
    }
  }

  /** The selection holds only matching stories, highest score first; with a
      non-negative limit it holds `min(limit, #matching)` of them (a negative limit
      drops that many from the end, as `slice` does); and no matching story left out
      scores higher than one taken. */
  lemma SelectSpec(stories: seq<Option<Story>>, topic: string, limit: int,
                   test: (Pattern, string) -> bool)
    ensures var kept := Filter(stories, topic, test);
      var r := Select(stories, topic, limit, test);
      && SortedByScore(r)
      && (forall s :: s in r ==> Some(s) in stories && Keep(Some(s), topic, test))
      && |r| == SliceEnd(|kept|, limit)
      && (limit >= 0 ==> |r| == Min(limit, |kept|))
      && multiset(r) <= multiset(kept)
      && forall x, y :: x in multiset(kept) - multiset(r) && y in r ==> Score(x) <= Score(y)
  {
    var kept := Filter(stories, topic, test);
    var sorted := SortByScore(kept);
    SortSpec(kept);
    assert |sorted| == |multiset(sorted)| == |kept|;
    var k := SliceEnd(|sorted|, limit);
    TopOfSorted(sorted, k);
    forall s | s in sorted[..k]
      ensures s in kept
    {
      assert s in multiset(sorted);
    }
  }

  /** Every selected story has a title. */
  lemma SelectTitled(stories: seq<Option<Story>>, topic: string, limit: int,
                     test: (Pattern, string) -> bool)
    ensures var r := Select(stories, topic, limit, test);
      forall i :: 0 <= i < |r| ==> Truthy(r[i].title)
  {
    var r := Select(stories, topic, limit, test);
    SelectSpec(stories, topic, limit, test);
    forall i | 0 <= i < |r|
      ensures Truthy(r[i].title)
    {
      assert r[i] in r;
    }
  }

  /** The reported form of a story: its own link when it has one, otherwise its
      discussion page, which is always reported as `hn_url`. */
  function Present(s: Story): (r: StoryOut)
    ensures r.hnUrl == ItemPrefix + s.id
    ensures r.url == (if Truthy(s.url) then s.url.value else r.hnUrl)
    ensures Truthy(s.title) ==> r.title == s.title.value
    ensures r.score == s.score && r.time == s.time
    ensures r.comments == (if s.descendants.Some? then s.descendants.value else 0)
  {
    var hnUrl := ItemPrefix + s.id;
    StoryOut(s.title.GetOr(""), if Truthy(s.url) then s.url.value else hnUrl, s.score,
             s.descendants.GetOr(0), s.time, hnUrl)
  }

  /** What the item calls for the first 40 ids yield; `None` if one body was unreadable. */
  function FetchStories(ids: seq<string>, item: string -> Item): (r: Option<seq<Option<Story>>>)
    ensures r.None? <==> exists i :: 0 <= i < |ids| && i < BatchSize && item(ids[i]).BodyUnreadable?
    ensures r.Some? ==>
      && |r.value| == Min(|ids|, BatchSize)
      && forall i :: 0 <= i < |r.value| ==>
           r.value[i] == (if item(ids[i]).Body? then item(ids[i]).story else None)
  {
    var batch := Slice(ids, BatchSize);
    if exists i :: 0 <= i < |batch| && item(batch[i]).BodyUnreadable? then None
    else Some(seq(|batch|, i requires 0 <= i < |batch| =>
      if item(batch[i]).Body? then item(batch[i]).story else None))
  }

  /** The whole handler. */
  function HandleHN(topicParam: Option<string>, limitParam: Option<int>, top: Fetched<seq<string>>,
                    item: string -> Item, test: (Pattern, string) -> bool): (r: Outcome<Feed>)
    ensures r.Fail? <==> top.Threw? || FetchStories(top.body, item).None?
    ensures r.Fail? ==> r.status == Rejected
    ensures r.Ok? ==>
      var topic := if Truthy(topicParam) then topicParam.value else DefaultTopic;
      var picked := Select(FetchStories(top.body, item).value, topic,
                           IntParam(limitParam, DefaultLimit, MaxLimit), test);
      && r.value.topic == topic
      && |r.value.stories| == |picked| <= BatchSize
      && (forall i :: 0 <= i < |picked| ==> r.value.stories[i] == Present(picked[i]))
      && forall i :: 0 <= i < |picked| ==> r.value.stories[i].title != ""
  {
    var topic := if Truthy(topicParam) then topicParam.value else DefaultTopic;
    var limit := IntParam(limitParam, DefaultLimit, MaxLimit);
    match top
    case Threw => Fail(Rejected)
    case Got(ids) =>
      match FetchStories(ids, item)
      case None => Fail(Rejected)
      case Some(stories) =>
        var picked := Select(stories, topic, limit, test);
        SelectTitled(stories, topic, limit, test);
        Ok(Feed(topic, seq(|picked|, i requires 0 <= i < |picked| => Present(picked[i]))))
  }
}

=== FILE: jstext.dfy ===
/**
 * The handful of JavaScript string and array primitives the gateway relies on,
 * written out with their JavaScript edge cases (clamping, negative indices,
 * falsy empty strings).
 */
module JsText {
  import opened Wrappers

  /** JavaScript truthiness of a possibly-null string: `null`, `undefined` and `""` are falsy. */
  predicate Truthy(s: Option<string>) {
    s.Some? && s.value != ""
  }

  /** A possibly-null string interpolated into a template literal. */
  function Interpolate(s: Option<string>): string {
    if s.Some? then s.value else "null"
  }

  /** `toUpperCase` on one character, restricted to the ASCII letters. */
  function UpperChar(c: char): char {
    if 'a' <= c <= 'z' then (c as int - 32) as char else c
  }

  /** `toUpperCase` on a string, character by character. */
  function Upper(s: string): (r: string)
    ensures |r| == |s|
    ensures forall i :: 0 <= i < |s| ==> r[i] == UpperChar(s[i])
  {
    if s == [] then [] else [UpperChar(s[0])] + Upper(s[1..])
  }

  /** `s.startsWith(p)` */
  predicate StartsWith(s: string, p: string) {
    |p| <= |s| && s[..|p|] == p
  }

  /** `p` occurs in `s` starting at index `i`. */
  predicate OccursAt(s: string, p: string, i: nat) {
    i + |p| <= |s| && s[i..i + |p|] == p
  }

  /** The first occurrence of `p` in `s` at or after index `k`. */
  function IndexFrom(s: string, p: string, k: nat): (r: Option<nat>)
    decreases |s| - k
    ensures r.Some? ==> k <= r.value && OccursAt(s, p, r.value)
    ensures r.Some? ==> forall j :: k <= j < r.value ==> !OccursAt(s, p, j)
    ensures r.None? ==> forall j :: k <= j <= |s| ==> !OccursAt(s, p, j)
  {
    if k + |p| > |s| then None
    else if s[k..k + |p|] == p then Some(k)
    else IndexFrom(s, p, k + 1)
  }

  /** `s.indexOf(p)`, with `None` for -1. */
  function IndexOf(s: string, p: string): Option<nat> {
    IndexFrom(s, p, 0)
  }

  /** `s.includes(p)` */
  predicate Contains(s: string, p: string) {
    IndexOf(s, p).Some?
  }

  /** `s.replace(p, rep)` with a plain-string pattern: only the first occurrence is replaced. */
  function ReplaceFirst(s: string, p: string, rep: string): string {
    match IndexOf(s, p)
    case None => s
    case Some(i) => s[..i] + rep + s[i + |p|..]
  }

  /** Replacing a pattern that the string starts with rewrites exactly that prefix;
      a string that does not contain the pattern is returned unchanged. */
  lemma ReplaceFirstCases(s: string, p: string, rep: string)
    ensures StartsWith(s, p) ==> ReplaceFirst(s, p, rep) == rep + s[|p|..]
    ensures (forall j :: 0 <= j <= |s| ==> !OccursAt(s, p, j)) ==> ReplaceFirst(s, p, rep) == s
  {
    if StartsWith(s, p) {
      assert OccursAt(s, p, 0);
    }
  }

  /** `s.substring(0, n)`: the end index is clamped into `[0, |s|]`. */
  function Prefix(s: string, n: int): (r: string)
    ensures |r| == if n <= 0 then 0 else if n < |s| then n else |s|
    ensures r == s[..|r|]
  {
    if n <= 0 then "" else if n < |s| then s[..n] else s
  }

  /** The end index `Array.prototype.slice(0, n)` uses on a list of length `len`:
      a negative `n` counts back from the end. */
  function SliceEnd(len: nat, n: int): (k: nat)
    ensures k <= len
    ensures n >= 0 ==> k == Min(n, len)
    ensures n < 0 ==> k == len - Min(-n, len)
  {
    if n < 0 then (if len + n < 0 then 0 else len + n)
    else if n < len then n else len
  }

  /** `xs.slice(0, n)` */
  function Slice<T>(xs: seq<T>, n: int): seq<T> {
    xs[..SliceEnd(|xs|, n)]
  }

  function Min(a: int, b: int): int {
    if a <= b then a else b
  }

  /** `Math.min(parseInt(param || dflt), cap)` for a numeric query parameter;
      `None` stands for an absent or empty parameter. */
  function IntParam(param: Option<int>, dflt: int, cap: int): (r: int)
    ensures r <= cap
    ensures param.None? ==> r == Min(dflt, cap)
    ensures param.Some? && param.value <= cap ==> r == param.value
    ensures param.Some? && param.value > cap ==> r == cap
  {
    Min(param.GetOr(dflt), cap)
  }
}

=== FILE: papers.dfy ===
/**
 * The `/api/pubmed` and `/api/arxiv` handlers. Both search one upstream and
 * normalise its records; the XML fields are taken as already extracted (the
 * `extract` regex helper and the whitespace collapsing are not modelled), and
 * both truncate abstracts to 500 characters.
 */
module Papers {
  import opened Wrappers
  import opened Envelope
  import opened JsText
  import opened Truncation

  const DefaultLimit := 5
  const MaxLimit := 10
  const PubMedPrefix := "https://pubmed.ncbi.nlm.nih.gov/"
  const AbsPrefix := "http://arxiv.org/abs/"
  const PdfPrefix := "http://arxiv.org/pdf/"
  const MaxAuthors := 5

  // ---- PubMed ----

  /** `esearchresult` of the search call: its id list (`None` when absent) and its
      hit count. */
  datatype SearchReply = SearchReply(ids: Option<seq<string>>, count: int)

  /** The fields of one `<PubmedArticle>` block. */
  datatype ArticleFields = ArticleFields(pmid: Option<string>, title: Option<string>,
    abstractText: Option<string>, journal: Option<string>, year: Option<string>)

  datatype Article = Article(pmid: Option<string>, title: Option<string>, summary: Option<string>,
    journal: Option<string>, year: Option<string>, url: string)

  datatype PubMedReply = PubMedReply(query: string, articles: seq<Article>, totalFound: Option<int>)

  /** The two E-utilities calls: search (term, retmax, sort) and fetch by ids. */
  datatype Entrez = Entrez(
    esearch: (string, int, string) -> Fetched<SearchReply>,
    efetch: seq<string> -> Fetched<seq<ArticleFields>>)

  function ToArticle(a: ArticleFields): Article {
    Article(a.pmid, a.title, Abstract(a.abstractText), a.journal, a.year,
            PubMedPrefix + Interpolate(a.pmid) + "/")
  }

  function HandlePubMed(q: Option<string>, limitParam: Option<int>, sortParam: Option<string>,
                        api: Entrez): (r: Outcome<PubMedReply>)
    ensures r == Fail(BadRequest) <==> !Truthy(q)
    ensures r.Ok? ==>
      var search := api.esearch(q.value, IntParam(limitParam, DefaultLimit, MaxLimit),
                                if Truthy(sortParam) then sortParam.value else "date");
      && search.Got?
      && var ids := search.body.ids.GetOr([]);
      && r.value.query == q.value
      && (ids == [] ==> r.value == PubMedReply(q.value, [], None))
      && (ids != [] ==>
            && api.efetch(ids).Got?
            && r.value.totalFound == Some(search.body.count)
            && |r.value.articles| == |api.efetch(ids).body|
            && forall i :: 0 <= i < |r.value.articles| ==>
                 r.value.articles[i] == ToArticle(api.efetch(ids).body[i]))
    ensures r.Ok? ==> forall a :: a in r.value.articles ==>
      a.summary.None? || |a.summary.value| <= AbstractCap + |Ellipsis|
    // success exactly when the calls made answer; an empty id list needs no fetch
    ensures Truthy(q) ==>
      var search := api.esearch(q.value, IntParam(limitParam, DefaultLimit, MaxLimit),
                                if Truthy(sortParam) then sortParam.value else "date");
      && (r.Ok? <==> search.Got? && (search.body.ids.GetOr([]) == [] || api.efetch(search.body.ids.GetOr([])).Got?))
      && (search.Got? && search.body.ids.GetOr([]) == [] ==> r == Ok(PubMedReply(q.value, [], None)))
    ensures r.Fail? ==> r.status in {BadRequest, Rejected}
  {
    if !Truthy(q) then Fail(BadRequest)
    else
      var limit := IntParam(limitParam, DefaultLimit, MaxLimit);
      var sort := if Truthy(sortParam) then sortParam.value else "date";
      match api.esearch(q.value, limit, sort)
      case Threw => Fail(Rejected)
      case Got(search) =>
        var ids := search.ids.GetOr([]);
        if ids == [] then Ok(PubMedReply(q.value, [], None))
        else
          match api.efetch(ids)
          case Threw => Fail(Rejected)
          case Got(blocks) =>
            Ok(PubMedReply(q.value, seq(|blocks|, i requires 0 <= i < |blocks| => ToArticle(blocks[i])),
                           Some(search.count)))
  }

  // ---- arXiv ----

  /** The fields of one `<entry>`; `pdfLink` is the `href` of the related PDF link
      when the entry has one. */
  datatype EntryFields = EntryFields(id: Option<string>, title: Option<string>, summary: Option<string>,
    published: Option<string>, updated: Option<string>, authors: seq<string>, categories: seq<string>,
    pdfLink: Option<string>)

  datatype Paper = Paper(id: Option<string>, title: Option<string>, authors: seq<string>,
    summary: Option<string>, categories: seq<string>, published: Option<string>,
    updated: Option<string>, url: Option<string>, pdf: Option<string>)

  datatype ArxivReply = ArxivReply(query: string, category: string, papers: seq<Paper>)

  /** The PDF link: the entry's own, else one derived from its abstract URL, else null. */
  function PdfOf(e: EntryFields): Option<string> {
    if e.pdfLink.Some? then e.pdfLink
    else if Truthy(e.id) then Some(ReplaceFirst(e.id.value, "/abs/", "/pdf/"))
    else None
  }

  function ToPaper(e: EntryFields): Paper {
    Paper(if e.id.Some? then Some(ReplaceFirst(e.id.value, AbsPrefix, "")) else None,
          e.title, Slice(e.authors, MaxAuthors), Abstract(e.summary), e.categories,
          e.published, e.updated, e.id, PdfOf(e))
  }

  /** The search expression: the query, narrowed to a category when one is given. */
  function SearchQuery(q: string, cat: Option<string>): string {
    if Truthy(cat) then "cat:" + cat.value + "+AND+" + q else q
  }

  function HandleArxiv(q: Option<string>, limitParam: Option<int>, sortParam: Option<string>,
                       cat: Option<string>, feed: (string, int, string) -> Fetched<seq<EntryFields>>)
    : (r: Outcome<ArxivReply>)
    ensures r == Fail(BadRequest) <==> !Truthy(q)
    ensures r.Ok? ==>
      var entries := feed(SearchQuery(q.value, cat), IntParam(limitParam, DefaultLimit, MaxLimit),
                          if Truthy(sortParam) then sortParam.value else "submittedDate");
      && entries.Got?
      && r.value.query == q.value
      && r.value.category == (if Truthy(cat) then cat.value else "all")
      && |r.value.papers| == |entries.body|
      && forall i :: 0 <= i < |r.value.papers| ==>
           && r.value.papers[i] == ToPaper(entries.body[i])
           && |r.value.papers[i].authors| <= MaxAuthors
           && r.value.papers[i].authors == entries.body[i].authors[..|r.value.papers[i].authors|]
    ensures Truthy(q) ==>
      (r.Ok? <==> feed(SearchQuery(q.value, cat), IntParam(limitParam, DefaultLimit, MaxLimit),
                       if Truthy(sortParam) then sortParam.value else "submittedDate").Got?)
    ensures r.Fail? ==> r.status in {BadRequest, Rejected}
  {
    if !Truthy(q) then Fail(BadRequest)
    else
      var limit := IntParam(limitParam, DefaultLimit, MaxLimit);
      var sort := if Truthy(sortParam) then sortParam.value else "submittedDate";
      match feed(SearchQuery(q.value, cat), limit, sort)
      case Threw => Fail(Rejected)
      case Got(entries) =>
        Ok(ArxivReply(q.value, if Truthy(cat) then cat.value else "all",
                      seq(|entries|, i requires 0 <= i < |entries| => ToPaper(entries[i]))))
  }

  /** No `/abs/` starts inside the host part of a canonical abstract URL. */
  lemma NoAbsInHost(x: string, j: nat)
    requires j < 16
    ensures !OccursAt(AbsPrefix + x, "/abs/", j)
  {
    var s := AbsPrefix + x;
    var w := s[j..j + 5];
    assert w[0] == AbsPrefix[j] && w[1] == AbsPrefix[j + 1] && w[2] == AbsPrefix[j + 2];
    assert AbsPrefix[j] != '/' || AbsPrefix[j + 1] != 'a' || AbsPrefix[j + 2] != 'b';
    assert w != "/abs/";
  }

  /** In a canonical abstract URL the first `/abs/` is the one right after the host. */
  lemma FirstAbsAfterHost(x: string)
    ensures IndexOf(AbsPrefix + x, "/abs/") == Some(16)
  {
    var s := AbsPrefix + x;
    assert OccursAt(s, "/abs/", 16) by {
      assert s[16..21] == AbsPrefix[16..21];
    }
    forall j | 0 <= j < 16
      ensures !OccursAt(s, "/abs/", j)
    {
      NoAbsInHost(x, j);
    }
  }

  /** For a canonical abstract URL `http://arxiv.org/abs/<x>` with no PDF link of its
      own, the paper's id is `<x>` and its PDF link is `http://arxiv.org/pdf/<x>`. */
  lemma CanonicalIdAndPdf(e: EntryFields, x: string)
    requires e.id == Some(AbsPrefix + x) && e.pdfLink.None?
    ensures ToPaper(e).id == Some(x)
    ensures ToPaper(e).pdf == Some(PdfPrefix + x)
  {
    var s := AbsPrefix + x;
    assert StartsWith(s, AbsPrefix);
    ReplaceFirstCases(s, AbsPrefix, "");
    assert ReplaceFirst(s, AbsPrefix, "") == "" + s[|AbsPrefix|..] == x;
    FirstAbsAfterHost(x);
    assert s[..16] + "/pdf/" + s[21..] == PdfPrefix + x;
  }
}

=== FILE: quota.dfy ===
/**
 * The daily quota gate in front of every `/api/` endpoint.
 *
 * One request is one state transition `(store, request) -> (store', outcome)`.
 * The key/value store is a map from key to the integer its stored string
 * parses to; `None` stands for a deployment where no store is bound, in which
 * case the gate fails open (usage reads as 0 and nothing is written). The
 * current UTC date is an input, so the daily reset is just a different key.
 */
module Quota {
  import opened Wrappers
  import opened JsText

  type Store = map<string, int>

  const FreeLimit := 20
  const ProLimit := 1000
  const ApiPrefix := "/api/"
  const StatusPath := "/api/status"

  /** Only `OPTIONS` is told apart: every other method is served the same way. */
  datatype Method = Options | OtherMethod

  /** The parts of an inbound request the gate reads. */
  datatype Request = Request(
    verb: Method,
    path: string,
    keyParam: Option<string>,       // `?key=`
    authorization: Option<string>,  // `Authorization` header
    connectingIp: Option<string>)   // `CF-Connecting-IP` header

  datatype Plan = Free | Pro

  datatype Endpoint = HackerNews | PubMed | Arxiv | Crypto | GitHub | Extract | Drugs

  /** Everything the gate derives about the caller before deciding. */
  datatype Caller = Caller(plan: Plan, id: string, limit: int, usageKey: string, usage: int)

  datatype Outcome =
    | Preflight                                              // CORS preflight, nothing read
    | Landing(usage: int, limit: int, plan: Plan)            // the HTML landing page
    | Status(plan: Plan, usage: int, limit: int, remaining: int)
    | Denied(usage: int, limit: int, plan: Plan)             // 429 with an upgrade hint per plan
    | Dispatched(endpoint: Endpoint)                         // handed to the endpoint's handler
    | UnknownEndpoint                                        // 404 under `/api/`
    | NotFound                                               // 404 outside `/api/`
    | StoreRejected                                          // a store read threw before the `try`
    | InternalError                                          // a store write threw: JSON 500

  datatype Transition = Transition(store: Option<Store>, outcome: Outcome)

  /** `?key=` if non-empty, otherwise the `Authorization` header with its first
      `"Bearer "` removed. */
  function ApiKey(req: Request): (r: Option<string>)
    ensures Truthy(req.keyParam) ==> r == req.keyParam
    ensures !Truthy(req.keyParam) ==> (r.None? <==> req.authorization.None?)
    ensures (!Truthy(req.keyParam) && req.authorization.Some?
             && StartsWith(req.authorization.value, "Bearer ")) ==>
      r == Some(req.authorization.value[7..])
    ensures (!Truthy(req.keyParam) && req.authorization.Some?
             && forall j :: 0 <= j <= |req.authorization.value| ==> !OccursAt(req.authorization.value, "Bearer ", j))
      ==> r == req.authorization
    // only the first `Bearer ` goes, wherever it stands: `Token Bearer x` gives `Token x`
    ensures !Truthy(req.keyParam) && req.authorization.Some? ==>
      r == Some(ReplaceFirst(req.authorization.value, "Bearer ", ""))
  {
    var header := req.authorization.GetOr("");
    ReplaceFirstCases(header, "Bearer ", "");
    assert StartsWith(header, "Bearer ") ==> "" + header[|"Bearer "|..] == header[7..];
    if Truthy(req.keyParam) then req.keyParam
    else match req.authorization
      case None => None
      case Some(h) => Some(ReplaceFirst(h, "Bearer ", ""))
  }

  function ProKey(key: string): string {
    "pro:" + key
  }

  function UsageKey(id: string, day: string): string {
    "usage:" + id + ":" + day
  }

  /** The integer stored under `k`, or 0 when the key or the whole store is missing. */
  function Usage(store: Option<Store>, k: string): int {
    if store.Some? && k in store.value then store.value[k] else 0
  }

  /** `put(k, v)` on the store, a no-op when no store is bound. */
  function Write(store: Option<Store>, k: string, v: int): Option<Store> {
    if store.Some? then Some(store.value[k := v]) else None
  }

  function ClientIp(req: Request): string {
    if Truthy(req.connectingIp) then req.connectingIp.value else "unknown"
  }

  /** Identity resolution: tier, rate-limit identity, daily limit and current usage. */
  function Identify(store: Option<Store>, req: Request, today: string): (c: Caller)
    ensures c.plan == Pro <==>
      Truthy(ApiKey(req)) && store.Some? && ProKey(ApiKey(req).value) in store.value
    ensures c.plan == Pro ==> c.limit == ProLimit && c.id == "key:" + ApiKey(req).value
    ensures c.plan == Free ==> c.limit == FreeLimit && c.id == ClientIp(req)
    ensures c.usageKey == UsageKey(c.id, today)
    ensures c.usage == Usage(store, c.usageKey)
    ensures store.None? ==> c.usage == 0 && c.plan == Free
  {
    var key := ApiKey(req);
    var pro := Truthy(key) && store.Some? && ProKey(key.value) in store.value;
    var id := if pro then "key:" + key.value else ClientIp(req);
    var usageKey := UsageKey(id, today);
    Caller(if pro then Pro else Free, id, if pro then ProLimit else FreeLimit,
           usageKey, Usage(store, usageKey))
  }

  /** `Math.max(0, limit - usage)` as reported by `/api/status`. */
  function Remaining(limit: int, usage: int): (r: int)
    ensures r >= 0
    ensures r == 0 <==> usage >= limit
    ensures usage <= limit ==> usage + r == limit
  {
    if limit - usage > 0 then limit - usage else 0
  }

  function PathOf(e: Endpoint): string {
    match e
    case HackerNews => "/api/hn"
    case PubMed => "/api/pubmed"
    case Arxiv => "/api/arxiv"
    case Crypto => "/api/crypto"
    case GitHub => "/api/github"
    case Extract => "/api/extract"
    case Drugs => "/api/drugs"
  }

  /** The dispatch table of the `/api/` paths. */
  function Route(path: string): (r: Option<Endpoint>)
    ensures r.Some? ==> PathOf(r.value) == path
    ensures r.None? <==> forall e: Endpoint :: PathOf(e) != path
  {
    if path == "/api/hn" then Some(HackerNews)
    else if path == "/api/pubmed" then Some(PubMed)
    else if path == "/api/arxiv" then Some(Arxiv)
    else if path == "/api/crypto" then Some(Crypto)
    else if path == "/api/github" then Some(GitHub)
    else if path == "/api/extract" then Some(Extract)
    else if path == "/api/drugs" then Some(Drugs)
    else None
  }

  /** A request the gate meters: not a preflight, under `/api/`, not the status call. */
  predicate Metered(req: Request) {
    req.verb == OtherMethod && StartsWith(req.path, ApiPrefix) && req.path != StatusPath
  }

  /** The request got past the gate and its use was recorded. */
  predicate Admitted(o: Outcome) {
    o.Dispatched? || o.UnknownEndpoint?
  }

  /** One request through the gate. */
  function Gate(store: Option<Store>, req: Request, today: string): (t: Transition)
    ensures req.verb == Options ==> t == Transition(store, Preflight)
    ensures var c := Identify(store, req, today);
      t.outcome.Denied? <==> Metered(req) && c.usage >= c.limit
    ensures var c := Identify(store, req, today);
      t.outcome.Denied? ==> t.outcome == Denied(c.usage, c.limit, c.plan)
    ensures var c := Identify(store, req, today);
      Admitted(t.outcome) <==> Metered(req) && c.usage < c.limit
    ensures var c := Identify(store, req, today);
      Admitted(t.outcome) ==> t.store == Write(store, c.usageKey, c.usage + 1)
    ensures !Admitted(t.outcome) ==> t.store == store
    ensures t.outcome.Dispatched? ==> PathOf(t.outcome.endpoint) == req.path
    ensures req.verb == OtherMethod && (req.path == "/" || req.path == "") ==>
      var c := Identify(store, req, today);
      t == Transition(store, Landing(c.usage, c.limit, c.plan))
    ensures (req.verb == OtherMethod && req.path != "/" && req.path != ""
             && !StartsWith(req.path, ApiPrefix)) ==> t == Transition(store, NotFound)
    ensures t.outcome.UnknownEndpoint? ==> Route(req.path).None?
    ensures req.verb == OtherMethod && req.path == StatusPath ==>
      var c := Identify(store, req, today);
      t == Transition(store, Status(c.plan, c.usage, c.limit, Remaining(c.limit, c.usage)))
    ensures store.None? ==> t.store == None && !t.outcome.Denied?
  {
    if req.verb == Options then Transition(store, Preflight)
    else
      var c := Identify(store, req, today);
      if req.path == "/" || req.path == "" then
        Transition(store, Landing(c.usage, c.limit, c.plan))
      else if StartsWith(req.path, ApiPrefix) then
        if req.path == StatusPath then
          Transition(store, Status(c.plan, c.usage, c.limit, Remaining(c.limit, c.usage)))
        else if c.usage >= c.limit then
          Transition(store, Denied(c.usage, c.limit, c.plan))
        else
          var counted := Write(store, c.usageKey, c.usage + 1);
          match Route(req.path)
          case Some(e) => Transition(counted, Dispatched(e))
          case None => Transition(counted, UnknownEndpoint)
      else
        Transition(store, NotFound)
  }

  /** Which of the store calls one request makes would throw. */
  datatype Faults = Faults(proRead: bool, usageRead: bool, write: bool)

  const Healthy := Faults(false, false, false)

  /** A store read made for this request throws. Both reads happen before the
      `try`, so such a failure rejects the request instead of being answered. */
  predicate ReadFails(store: Option<Store>, req: Request, faults: Faults) {
    && req.verb != Options && store.Some?
    && (faults.usageRead || (Truthy(ApiKey(req)) && faults.proRead))
  }

  /** One request through the gate with a store that may fail. The counter write is
      awaited inside the `try`, so its failure is caught and answered with the JSON
      `Internal error` instead of dispatching. */
  function Serve(store: Option<Store>, req: Request, today: string, faults: Faults): (t: Transition)
    ensures faults == Healthy || store.None? ==> t == Gate(store, req, today)
    ensures t.outcome == StoreRejected <==> ReadFails(store, req, faults)
    ensures t.outcome == InternalError <==>
      !ReadFails(store, req, faults) && Admitted(Gate(store, req, today).outcome)
      && store.Some? && faults.write
    ensures !t.outcome.StoreRejected? && !t.outcome.InternalError? ==> t == Gate(store, req, today)
    ensures !Admitted(t.outcome) ==> t.store == store
  {
    if req.verb == Options then Transition(store, Preflight)
    else if ReadFails(store, req, faults) then Transition(store, StoreRejected)
    else
      var t := Gate(store, req, today);
      if Admitted(t.outcome) && store.Some? && faults.write then Transition(store, InternalError)
      else t
  }

  /** The store after the same request is issued `n` times on the same day. */
  function Repeat(store: Option<Store>, req: Request, today: string, n: nat): Option<Store>
    decreases n
  {
    if n == 0 then store else Gate(Repeat(store, req, today, n - 1), req, today).store
  }

  /** Usage counters and pro markers live under different keys. */
  lemma UsageKeyIsNotProKey(id: string, day: string, key: string)
    ensures UsageKey(id, day) != ProKey(key)
  {
    assert UsageKey(id, day)[0] == 'u';
    assert ProKey(key)[0] == 'p';
  }

  /** With fixed-width days (ISO `YYYY-MM-DD`), a usage key names one identity and one day. */
  lemma UsageKeyInjective(id1: string, day1: string, id2: string, day2: string)
    requires |day1| == |day2|
    ensures UsageKey(id1, day1) == UsageKey(id2, day2) ==> id1 == id2 && day1 == day2
  {
    var k1, k2 := UsageKey(id1, day1), UsageKey(id2, day2);
    if k1 == k2 {
      assert |id1| == |id2|;
      assert id1 == k1[6..6 + |id1|];
      assert id2 == k2[6..6 + |id2|];
      assert day1 == k1[|k1| - |day1|..];
      assert day2 == k2[|k2| - |day2|..];
    }
  }

  /** Writing a usage counter never changes anybody's tier or identity, and changes
      their usage only when it is their own counter. */
  lemma IdentifyAfterWrite(store: Option<Store>, id0: string, day0: string, v: int,
                           req: Request, today: string)
    ensures var before := Identify(store, req, today);
      var after := Identify(Write(store, UsageKey(id0, day0), v), req, today);
      && after.plan == before.plan && after.id == before.id && after.limit == before.limit
      && after.usageKey == before.usageKey
      && after.usage == (if store.Some? && before.usageKey == UsageKey(id0, day0) then v
                         else before.usage)
  {
    var key := ApiKey(req);
    if Truthy(key) {
      UsageKeyIsNotProKey(id0, day0, key.value);
    }
  }

  /** Starting a fresh day, the n-th metered request (n up to the limit) leaves
      exactly n recorded under the caller's key for that day. */
  lemma {:induction false} RepeatCounts(store: Option<Store>, req: Request, today: string, n: nat)
    requires Metered(req) && store.Some?
    requires Identify(store, req, today).usageKey !in store.value
    requires n <= Identify(store, req, today).limit
    ensures var c := Identify(store, req, today);
      Repeat(store, req, today, n) == if n == 0 then store else Some(store.value[c.usageKey := n])
  {
    var c := Identify(store, req, today);
    if n > 0 {
      RepeatCounts(store, req, today, n - 1);
      var prev := Repeat(store, req, today, n - 1);
      if n - 1 > 0 {
        IdentifyAfterWrite(store, c.id, today, n - 1, req, today);
      }
      var c' := Identify(prev, req, today);
      assert c'.usageKey == c.usageKey && c'.limit == c.limit && c'.usage == n - 1;
      assert Repeat(store, req, today, n) == Write(prev, c.usageKey, n);
      assert prev.value[c.usageKey := n] == store.value[c.usageKey := n];
    }
  }

  /** Every one of the first `limit` metered requests of a day is admitted. */
  lemma AdmittedBeforeLimit(store: Option<Store>, req: Request, today: string, n: nat)
    requires Metered(req) && store.Some?
    requires Identify(store, req, today).usageKey !in store.value
    requires n < Identify(store, req, today).limit
    ensures Admitted(Gate(Repeat(store, req, today, n), req, today).outcome)
  {
    var c := Identify(store, req, today);
    RepeatCounts(store, req, today, n);
    if n > 0 {
      IdentifyAfterWrite(store, c.id, today, n, req, today);
    }
  }

  /** After `limit` admitted requests in one day, the next one is denied and reports
      `usage == limit`. */
  lemma ExhaustThenDeny(store: Option<Store>, req: Request, today: string)
    requires Metered(req) && store.Some?
    requires Identify(store, req, today).usageKey !in store.value
    ensures var c := Identify(store, req, today);
      Gate(Repeat(store, req, today, c.limit), req, today).outcome == Denied(c.limit, c.limit, c.plan)
  {
    var c := Identify(store, req, today);
    RepeatCounts(store, req, today, c.limit);
    IdentifyAfterWrite(store, c.id, today, c.limit, req, today);
  }

  /** Status calls are never metered: any number of them leaves the store as it was. */
  lemma {:induction false} StatusIsFree(store: Option<Store>, req: Request, today: string, n: nat)
    requires req.path == StatusPath
    ensures Repeat(store, req, today, n) == store
    ensures !Gate(Repeat(store, req, today, n), req, today).outcome.Denied?
  {
    if n > 0 {
      StatusIsFree(store, req, today, n - 1);
    }
  }

  /** A request on one day never changes what any caller reads on another day. */
  lemma DayIsolation(store: Option<Store>, req: Request, day: string, other: Request, otherDay: string)
    requires |day| == |otherDay| && day != otherDay
    ensures Identify(Gate(store, req, day).store, other, otherDay) == Identify(store, other, otherDay)
  {
    var c := Identify(store, req, day);
    var c2 := Identify(store, other, otherDay);
    UsageKeyInjective(c.id, day, c2.id, otherDay);
    IdentifyAfterWrite(store, c.id, day, c.usage + 1, other, otherDay);
  }
}

=== FILE: targets.dfy ===
/**
 * Resolution of a caller-supplied gene/target name to one ChEMBL target:
 * a four-tier, first-match selection over the candidates the target search
 * returned, in upstream order.
 */
module Targets {
  import opened Wrappers
  import JsText
  import Chain

  const HomoSapiens := "Homo sapiens"
  const SingleProtein := "SINGLE PROTEIN"

  /** One `component_synonym` entry. */
  datatype Synonym = Synonym(componentSynonym: Option<string>)

  /** One `target_components` entry; a missing synonym list reads as empty. */
  datatype Component = Component(synonyms: seq<Synonym>)

  /** One candidate of the target search; a missing component list reads as empty. */
  datatype Target = Target(
    chemblId: string,
    prefName: Option<string>,
    targetType: Option<string>,
    organism: Option<string>,
    components: seq<Component>)

  /** Case-insensitive equality of a synonym with the query. */
  predicate SynonymMatches(s: Synonym, query: string) {
    s.componentSynonym.Some? && JsText.Upper(s.componentSynonym.value) == JsText.Upper(query)
  }

  /** Some component of `t` lists the query among its synonyms. */
  predicate HasExactSynonym(t: Target, query: string) {
    exists c :: c in t.components && exists s :: s in c.synonyms && SynonymMatches(s, query)
  }

  /** Tier (c): a human target. */
  predicate Human(t: Target) {
    t.organism == Some(HomoSapiens)
  }

  /** Tier (b): a human single protein. */
  predicate HumanProtein(t: Target) {
    Human(t) && t.targetType == Some(SingleProtein)
  }

  /** Tier (a): a human single protein with an exact synonym match. */
  predicate ExactHumanProtein(t: Target, query: string) {
    HumanProtein(t) && HasExactSynonym(t, query)
  }

  /** The index of the chosen candidate; `None` only for an empty list. */
  function Resolve(query: string, targets: seq<Target>): (r: Option<nat>)
    ensures r.None? <==> |targets| == 0
    ensures r.Some? ==> r.value < |targets|
    ensures (exists i :: 0 <= i < |targets| && ExactHumanProtein(targets[i], query)) ==>
      r.Some? && ExactHumanProtein(targets[r.value], query)
      && forall j :: 0 <= j < r.value ==> !ExactHumanProtein(targets[j], query)
    ensures ((forall i :: 0 <= i < |targets| ==> !ExactHumanProtein(targets[i], query))
             && (exists i :: 0 <= i < |targets| && HumanProtein(targets[i]))) ==>
      r.Some? && HumanProtein(targets[r.value])
      && forall j :: 0 <= j < r.value ==> !HumanProtein(targets[j])
    ensures ((forall i :: 0 <= i < |targets| ==> !HumanProtein(targets[i]))
             && (exists i :: 0 <= i < |targets| && Human(targets[i]))) ==>
      r.Some? && Human(targets[r.value])
      && forall j :: 0 <= j < r.value ==> !Human(targets[j])
    ensures |targets| > 0 && (forall i :: 0 <= i < |targets| ==> !Human(targets[i])) ==>
      r == Some(0)
  {
    match Chain.FindFirst(targets, (t: Target) => ExactHumanProtein(t, query))
    case Some(i) => Some(i)
    case None =>
      match Chain.FindFirst(targets, HumanProtein)
      case Some(i) => Some(i)
      case None =>
        match Chain.FindFirst(targets, Human)
        case Some(i) => Some(i)
        case None => if |targets| == 0 then None else Some(0)
  }

  /** When exactly one candidate is an exact human single-protein match, it is chosen
      however the upstream ordered the candidates. */
  lemma ExactMatchIsOrderIndependent(query: string, xs: seq<Target>, ys: seq<Target>, t: Target)
    requires multiset(xs) == multiset(ys)
    requires t in xs && ExactHumanProtein(t, query)
    requires forall u :: u in xs && ExactHumanProtein(u, query) ==> u == t
    ensures Resolve(query, xs).Some? && Resolve(query, ys).Some?
    ensures xs[Resolve(query, xs).value] == t && ys[Resolve(query, ys).value] == t
  {
    assert t in multiset(ys);
    var i :| 0 <= i < |ys| && ys[i] == t;
    var k := Resolve(query, ys).value;
    assert ys[k] in multiset(xs);
  }
}

=== FILE: truncation.dfy ===
/**
 * The two text-truncation rules of the handlers: the 500-character abstract
 * with an ellipsis, and the extracted page content cut at a caller-chosen
 * maximum with a `truncated` flag.
 */
module Truncation {
  import opened Wrappers
  import opened JsText

  const AbstractCap := 500
  const Ellipsis := "..."

  /** `text ? text.substring(0, 500) + (text.length > 500 ? '...' : '') : null` */
  function Abstract(text: Option<string>): (r: Option<string>)
    ensures r.None? <==> !Truthy(text)
    ensures r.Some? ==> |r.value| <= AbstractCap + |Ellipsis|
    ensures Truthy(text) && |text.value| <= AbstractCap ==> r == text
    ensures Truthy(text) && |text.value| > AbstractCap ==>
      r == Some(text.value[..AbstractCap] + Ellipsis)
  {
    if !Truthy(text) then None
    else if |text.value| > AbstractCap then Some(Prefix(text.value, AbstractCap) + Ellipsis)
    else
      assert Prefix(text.value, AbstractCap) == text.value;
      Some(Prefix(text.value, AbstractCap))
  }

  /** The abstract never invents text: without its ellipsis it is a prefix of the
      original; it is the original itself when nothing was cut, and otherwise it is
      exactly 503 characters ending in the ellipsis. (A 503-character text ending in
      "..." comes back unchanged even though it was cut.) */
  lemma AbstractIsPrefix(text: string)
    requires text != ""
    ensures var a := Abstract(Some(text)).value;
      var cut := if |text| > AbstractCap then |a| - |Ellipsis| else |a|;
      && 0 <= cut <= |text| && a[..cut] == text[..cut]
      && (|text| <= AbstractCap ==> a == text)
      && (|text| > AbstractCap ==> |a| == AbstractCap + |Ellipsis| && a[AbstractCap..] == Ellipsis)
  {
    var a := Abstract(Some(text)).value;
    if |text| > AbstractCap {
      assert a[..|a| - |Ellipsis|] == text[..AbstractCap];
    }
  }

  /** A page's content as reported: the first `maxChars` characters, the full
      length, and whether anything was cut. */
  datatype Excerpt = Excerpt(content: string, length: nat, truncated: bool)

  /** `{ content: text.substring(0, maxChars), length: text.length, truncated: text.length > maxChars }` */
  function Cut(text: string, maxChars: int): (e: Excerpt)
    ensures e.length == |text|
    ensures e.truncated <==> |text| > maxChars
    ensures |e.content| == Min(|text|, if maxChars < 0 then 0 else maxChars)
    ensures e.content == text[..|e.content|]
    ensures maxChars >= 0 ==> (e.truncated <==> e.content != text)
  {
    Excerpt(Prefix(text, maxChars), |text|, |text| > maxChars)
  }
}

=== FILE: wrappers.dfy ===
/** Failure-compatible wrappers shared by every module of the model. */
module Wrappers {

  /** A value that may be absent: JavaScript's `null` / `undefined`. */
  datatype Option<+T> = None | Some(value: T) {

    /** The wrapped value, or `default` when absent. */
    function GetOr(default: T): T {
      match this
      case Some(v) => v
      case None => default
    }
  }
}
